=== FILE: README.md ===
# VConnect client rules, modelled in Dafny

VConnect is a community-events web client. Users browse, create, join and manage
volunteer, donation and community events. Most of the client is markup. This project
models the sequential rules inside it:

- **Session state machine** (`AuthContext`): the reducer, the boot-time restore from the
  stored token, login with role normalization, signup and logout.
- **Mock user store** (`AuthService`): login by email and password, and signup with
  duplicate-email rejection and ids taken from a counter.
- **Constants and validators** (`Constants`, `EmailRule`, `CreateEvent`): the role and
  category names, `PASSWORD_MIN_LENGTH = 6`, `NAME_MIN_LENGTH = 2`, the EMAIL regular
  expression, and the create-event form rules.
- **List computations** (`Home`, `AdminDashboard`, `MyEvents`): search and category
  filtering, response-shape normalization, and dashboard statistics.
- **Guards** (`Navbar`, `EventDetails`, `MyEvents`, `CreateEvent`): role- and
  session-dependent links and buttons, the join flow's `joining` flag, and the
  confirm-guarded leave/delete.

Modelling conventions:

- Every async handler is split into a `…Begin` function and a `…Done` function.
  - `…Begin` covers the state change and the requests issued before the first `await`.
  - `…Done` takes the service's answer as input and covers what follows.
- Effects are a sequence of `Request(call)`, `Navigate(path)` and `Notify(kind, message)`.
- Browser storage is a `map<string, string>`. The clock is an integer `now` in milliseconds.
- The token decoder and the token generator are uninterpreted function parameters.
- `confirm()` answers are boolean inputs.

JavaScript truthiness is written out where the code relies on it:

- A stored token `""` counts as absent, so it is not removed.
- A user id of `0` does not trigger the My Events load.
- `userData.role || 'USER'` turns a missing or empty role into `USER`.
- `data.created || data.events || []` takes `created` whenever it is present, even when it is empty.

Two quirks are modelled as written:

- Restore stores the decoded claims as the user without stripping `ROLE_`. Only login strips it.
  So after a reload, a token whose role claim is `ROLE_ADMIN` gives neither the organizer nor
  the admin view (`Navbar.RestoredPrefixedRoleLosesRights`).
- `replace('ROLE_', '')` removes the first occurrence of `ROLE_` wherever it is, not only a prefix.

## Model

| member | source | states |
|---|---|---|
| `AuthContext.Reduce` | src/context/AuthContext.jsx:14-37 | LOGIN_SUCCESS installs the payload's user and token, signed in, not loading. LOGOUT gives the empty, signed-out, not-loading state. SET_LOADING changes only `loading`. Any other action leaves the state as is. Every action keeps "signed in iff a user and a token are held" |
| `AuthContext.LogoutForgetsHistory` | src/context/AuthContext.jsx:24-28 | LOGOUT yields the same state whatever state it is applied to |
| `AuthContext.Restore` | src/context/AuthContext.jsx:42-63 | Loading ends false on every path. The session is signed in iff a non-empty stored token decodes to claims with `exp*1000 > now`. It then holds exactly those claims (roles unnormalized) and that token, with storage untouched. Otherwise the session has no user or token, and a non-empty stored token is removed |
| `AuthContext.Restorable` | src/context/AuthContext.jsx:43-47 | A session can be restored iff the stored token is non-empty, decodes to claims, and `exp*1000 > now` |
| `AuthContext.NormalizeRole` | src/context/AuthContext.jsx:78 | `role.replace('ROLE_', '')`: the first occurrence of `ROLE_` is removed; the lemmas below pin its behaviour |
| `AuthContext.NormalizeStripsPrefix` | src/context/AuthContext.jsx:78 | Removing `ROLE_` from `ROLE_` + x gives x |
| `AuthContext.NormalizeKeepsUnprefixed` | src/context/AuthContext.jsx:78 | A role without `ROLE_` is unchanged |
| `AuthContext.NormalizeOrganizer` | src/context/AuthContext.jsx:78 | "ROLE_ORGANIZER" normalizes to "ORGANIZER" |
| `AuthContext.NormalizeLeavesAdmin` | src/context/AuthContext.jsx:78 | "ADMIN" is unchanged |
| `AuthContext.NormalizeRemovesOneMarker` | src/context/AuthContext.jsx:78 | Only the first marker goes: "ROLE_ROLE_ADMIN" gives "ROLE_ADMIN" |
| `AuthContext.NormalizeRemovesInnerMarker` | src/context/AuthContext.jsx:78 | A marker that is not a prefix is removed too: "SUPERROLE_ADMIN" gives "SUPERADMIN" |
| `AuthContext.Login` | src/context/AuthContext.jsx:65-86 | Login succeeds iff the request succeeds and the token decodes to claims carrying a role. Then the token is stored and LOGIN_SUCCESS is dispatched with id, email and the normalized role. On failure the state is unchanged. Storage changes iff the request succeeded and decoding did not throw, so a token with missing claims stays stored |
| `AuthContext.Signup` | src/context/AuthContext.jsx:91-94 | A rejected signup request leaves the session unchanged. An accepted one continues exactly as a login with the same credentials |
| `AuthContext.LogoutSession` | src/context/AuthContext.jsx:96-99 | The token key is removed, every other stored key is kept, and the state is the signed-out LOGOUT state |
| `AuthContext.RestoreAfterLogout` | src/context/AuthContext.jsx:43-60 | A reload after logout restores no session |
| `AuthContext.RestoreAfterLoginKeepsRawClaims` | src/context/AuthContext.jsx:46-53 | A reload after a successful login restores the raw decoded claims, not the normalized user login dispatched |
| `AuthContext.LoginPreservesConsistency` | src/context/AuthContext.jsx:71-82 | Login, on any path, keeps "signed in iff a user and a token are held" |
| `AuthService.Login` | src/services/authService.js:35-62 | Succeeds iff some stored user has both the email and the password. It answers with the first such user's id, name, email and role (no password) and a token generated from them. Otherwise it fails with 'Invalid email or password' |
| `AuthService.DefaultRole` | src/services/authService.js:77 | A missing or empty role becomes USER. Any other role is kept |
| `AuthService.Signup` | src/services/authService.js:64-99 | Fails with 'Email already exists', store unchanged, iff some stored user has the email. Otherwise it appends exactly one user with id `nextUserId` and the default role, the counter goes up by 1, and it answers with the new user's public fields |
| `AuthService.SeededWellFormed` | src/services/authService.js:5-32 | The seed users 1..3 and the counter 4 have distinct ids below the counter and distinct emails |
| `AuthService.SignupPreservesInvariants` | src/services/authService.js:72-81 | Signup keeps ids pairwise distinct and below the counter, and emails distinct |
| `AuthService.LoginAfterSignup` | src/services/authService.js:38-40 | After a successful signup, login with the same email and password gives back the same answer: the new user |
| `AuthService.SignupKeepsExistingUsers` | src/services/authService.js:81 | Existing entries are untouched. Signup only appends |
| `Constants.ParseRole` | src/utils/constants.js:1-5 | A string is a role name iff it is one of USER, ORGANIZER, ADMIN, and it parses to the role of that name |
| `Constants.RoleNameRoundTrip` | src/utils/constants.js:1-5 | Every role's name is in ROLES and parses back to that role |
| `Constants.ParseCategory` | src/utils/constants.js:7-11 | A string is a category iff it is one of VOLUNTEER, DONATION, COMMUNITY |
| `Constants.CategoryNameRoundTrip` | src/utils/constants.js:7-11 | Every category's name is in EVENT_CATEGORIES and parses back |
| `EmailRule.IsValidEmail` | src/utils/constants.js:35 | The EMAIL test, as a scan. The longest leading run of local characters is non-empty and followed by '@'. The longest trailing run of letters has two or more letters and follows a '.'. Between the '@' and that '.' lie one or more domain characters |
| `EmailRule.IsValidEmailCorrect` | src/utils/constants.js:35 | The validator accepts a string iff it is: local chars `[A-Za-z0-9._%+-]`+, then '@', then domain chars `[A-Za-z0-9.-]`+, then '.', then two or more letters |
| `EmailRule.AcceptedHasOneAt` | src/utils/constants.js:35 | Every accepted string contains exactly one '@' |
| `EmailRule.AcceptanceIgnoresCase` | src/utils/constants.js:35 | Strings equal up to ASCII letter case are accepted alike (the `i` flag) |
| `EmailRule.AcceptanceOfLowered` | src/utils/constants.js:35 | Lower-casing never changes acceptance |
| `EmailRule.Examples` | src/utils/constants.js:35 | "user@demo.com" is accepted. "user@demo", "a@b@c.io" and "@demo.com" are rejected |
| `Text.ReplaceFirst` | src/context/AuthContext.jsx:78 | String `replace` with a string pattern and a literal replacement. With no occurrence of the pattern the string is unchanged. Otherwise exactly the first occurrence is replaced |
| `Text.Includes` | src/pages/Home.jsx:55-57 | Holds iff the pattern occurs at some index |
| `Text.JsLength` | src/pages/CreateEvent.jsx:97-103 | JavaScript `length`: between the number of characters and twice it. It equals the number of characters iff every character is in the Basic Multilingual Plane |
| `Text.Lower` | src/pages/Home.jsx:55-57 | Keeps the length and ASCII-folds every character |
| `CreateEvent.CategoryOptionsAreCategories` | src/pages/CreateEvent.jsx:34-38 | The offered radio values are exactly VOLUNTEER, DONATION, COMMUNITY |
| `CreateEvent.Validate` | src/pages/CreateEvent.jsx:97-346 | Lengths are JavaScript lengths (UTF-16 code units). Title: an error iff shorter than 5, 'Event title is required' when empty, else 'Title must be at least 5 characters'. Category: an error iff none is selected, 'Category is required'. maxCapacity: an error iff empty, below 1 or above 1000, each with its message. Description: an error iff shorter than 20, with the required or the too-short message. Location, date and time: an error iff empty, with 'Event location is required', 'Event date is required' and 'Event time is required'. Latitude, longitude and imageUrl: never an error |
| `CreateEvent.ValidDraftCharacterized` | src/pages/CreateEvent.jsx:97-291 | A draft has no errors iff all the required-field, length and range rules hold |
| `CreateEvent.SubmitEnabled` | src/pages/CreateEvent.jsx:370 | The submit button is enabled iff the page is not loading |
| `CreateEvent.NativeValid` | src/pages/CreateEvent.jsx:166-180 | The browser's checks, run before the form library's handler (the form at line 80 has no `noValidate`). Capacity is empty or a whole number in 1..1000 (`min`, `max`, default step 1). The date is empty or not before today (line 264). The image URL is empty or well-formed (line 345) |
| `CreateEvent.ClickSubmit` | src/pages/CreateEvent.jsx:21-24 | While loading a click does nothing. When the browser's checks fail, nothing happens and the errors stay as they were. These checks are: capacity an integer in 1..1000, date not before today, and a well-formed image URL. Otherwise an invalid draft records its errors and has no effect at all, and a valid draft sets loading and issues exactly the create call. A call is issued iff the button is enabled, the browser's checks pass and the draft is valid |
| `CreateEvent.TodayMeetsDateMin` | src/pages/CreateEvent.jsx:264 | The date `min` is inclusive: a draft dated exactly today passes the browser's checks iff it does with the date left empty |
| `CreateEvent.NativeChecksPreemptRange` | src/pages/CreateEvent.jsx:166-179 | Once the browser's checks pass, capacity is in error iff it is empty, and the message is 'Maximum capacity is required'. The range messages are never reached by a submit |
| `CreateEvent.NativeChecksBlock` | src/pages/CreateEvent.jsx:80 | A draft the form rules accept makes no call when its date is 2000-01-01 (today being 2026-10-10), when its capacity is 2.5, or when its image URL is malformed |
| `CreateEvent.SampleDraftAccepted` | src/pages/CreateEvent.jsx:97-346 | The draft used in those examples passes both the form rules and the browser's checks |
| `CreateEvent.TitleLengthCountsCodeUnits` | src/pages/CreateEvent.jsx:97-103 | A title of three emoji has length 6 and passes the 5-character minimum. "abc" gets 'Title must be at least 5 characters' |
| `CreateEvent.SubmitDone` | src/pages/CreateEvent.jsx:25-31 | On both paths the page is the same with loading false, so the errors are kept. The move to /my-events happens iff the call succeeded. Success gives exactly the toast 'Event created successfully!' followed by the move to /my-events. A failure shows only the error's message or 'Failed to create event' |
| `CreateEvent.NoDoubleSubmit` | src/pages/CreateEvent.jsx:370 | After a click that issued the create call, a second click issues nothing, whatever the draft |
| `Home.SearchFilter` | src/pages/Home.jsx:54-58 | Keeps exactly the events matching the search term |
| `Home.CategoryFilter` | src/pages/Home.jsx:62 | Keeps exactly the events of the category |
| `Home.FilterEvents` | src/pages/Home.jsx:50-66 | The search pass when the term is non-empty, then the category pass unless the selection is ALL |
| `Home.FilterEventsIsShownFilter` | src/pages/Home.jsx:50-66 | The two passes equal a single filter by "matches the term (if any) and the category (unless ALL)" |
| `Home.NoCriteriaShowsAll` | src/pages/Home.jsx:50-65 | With an empty term and ALL, the filtered list is the event list |
| `Home.FilteredIsSubsequence` | src/pages/Home.jsx:50-65 | The filtered list is an order-preserving subsequence of the events |
| `Home.FilterSoundAndComplete` | src/pages/Home.jsx:50-65 | An event is kept iff it meets both criteria. With a non-empty term it has the term, ignoring case, in its title, description or location. With a category other than ALL it has exactly that category |
| `Home.FilterEventsIdempotent` | src/pages/Home.jsx:50-65 | Filtering the result again with the same inputs changes nothing |
| `Home.NormalizeList` | src/pages/Home.jsx:36-38 | An array is used as is. Otherwise `created` if present, else `events`, else []. A null body cannot be read |
| `Home.DisplayedAfterLoad` | src/pages/Home.jsx:26-28 | After a successful load the page shows exactly the loaded events that meet the current term and category, as a subsequence in loaded order. A null body shows nothing |
| `Home.LoadBegin` | src/pages/Home.jsx:30-33 | Only loading changes: the events, search term and category are kept. The list is requested |
| `Home.LoadDone` | src/pages/Home.jsx:34-46 | Loading ends false. The events are the normalized list, or [] with a toast when the call failed or the body was null |
| `Home.JoinBegin` | src/pages/Home.jsx:68-76 | A signed-out join makes no call and goes to /login with a toast. A signed-in join requests the join |
| `Home.JoinDone` | src/pages/Home.jsx:77-81 | Success keeps the list, sets loading and gives exactly the toast 'Successfully joined the event!' followed by the list request. Failure leaves the page as it is and only shows 'Failed to join event' |
| `AdminDashboard.ReduceRegistered` | src/pages/AdminDashboard.jsx:34 | The left fold from `acc` equals `acc` plus the sum of `registeredCount` |
| `AdminDashboard.UpcomingEvents` | src/pages/AdminDashboard.jsx:35 | Keeps exactly the events dated after now |
| `AdminDashboard.ComputeStats` | src/pages/AdminDashboard.jsx:33-42 | totalUsers is 2500. totalEvents is the number of events. totalRegistrations is the sum of `registeredCount`. activeEvents is between 0 and totalEvents |
| `AdminDashboard.RegistrationsNonNegative` | src/pages/AdminDashboard.jsx:34 | With non-negative counts the registration total is non-negative |
| `AdminDashboard.RowStatus` | src/pages/AdminDashboard.jsx:117-121 | 'Active' iff the date is after now, else 'Past' |
| `AdminDashboard.ActiveRowsMatchStats` | src/pages/AdminDashboard.jsx:117-121 | At the load's instant, the number of Active rows equals activeEvents, and Active plus Past rows equal totalEvents |
| `AdminDashboard.LoadBegin` | src/pages/AdminDashboard.jsx:27-30 | Only loading changes: the stats and the events are kept. The list is requested |
| `AdminDashboard.LoadDone` | src/pages/AdminDashboard.jsx:31-47 | Loading ends false. An array sets events and stats. A non-array body is stored while the stats stay and a toast shows. A failed call changes nothing but the toast |
| `AdminDashboard.FailedFirstLoadShowsInitialStats` | src/pages/AdminDashboard.jsx:13-18 | If the first load does not bring an array, the cards keep the initial stats: 2500 users and zero events, registrations and active events |
| `AdminDashboard.DeleteBegin` | src/pages/AdminDashboard.jsx:50-54 | Declining the confirm makes no call. Confirming requests the delete |
| `AdminDashboard.DeleteDone` | src/pages/AdminDashboard.jsx:55-59 | Success keeps the stats and rows, sets loading, and gives exactly the toast 'Event deleted successfully' followed by the list request. Failure leaves the dashboard as it is and only shows 'Failed to delete event' |
| `EventDetails.IsFull` | src/pages/EventDetails.jsx:269 | An event is full iff `registeredCount >= maxCapacity` |
| `EventDetails.Control` | src/pages/EventDetails.jsx:269-302 | The 'Event Full' panel is shown iff the event is loaded and registeredCount >= maxCapacity. When the event is loaded and not full, the join button is shown, disabled iff joining or signed out, with its caption |
| `EventDetails.LoadBegin` | src/pages/EventDetails.jsx:25-28 | Only loading changes: the event id, the event and `joining` are kept. That event is requested |
| `EventDetails.LoadDone` | src/pages/EventDetails.jsx:29-35 | Only the event and loading change: the id and `joining` are kept and loading ends false. On success the answer is stored as it is, a null body included, and there is no other effect. A null event then renders as 'Event Not Found' with no join control. On failure the old event stays, a toast shows and the page moves to '/' |
| `EventDetails.JoinBegin` | src/pages/EventDetails.jsx:38-47 | A signed-out join leaves the page as it is, makes no call and goes to /login. A signed-in join with a loaded event changes only `joining`, to true, and requests the join with the event and user ids. With no event the thrown TypeError's message is shown and `joining` ends false. A request is issued iff signed in with an event loaded |
| `EventDetails.JoinDone` | src/pages/EventDetails.jsx:47-54 | `joining` ends false on both paths, and the id and event are kept. Success sets loading and gives exactly the toast followed by the reload request for the same id. Failure changes only `joining` and shows the error's message or the fallback |
| `EventDetails.ClickJoin` | src/pages/EventDetails.jsx:280-284 | A click runs the handler iff an enabled join button is rendered |
| `EventDetails.ClickJoinGuards` | src/pages/EventDetails.jsx:269-284 | No join is requested while joining, while loading, when signed out, or for a full event |
| `EventDetails.NoDoubleJoin` | src/pages/EventDetails.jsx:284 | After a click that issued a join, a second click issues nothing |
| `Navbar.IsOrganizer` | src/components/Navbar.jsx:15 | `user?.role` is ORGANIZER or ADMIN; false with no user or no role |
| `Navbar.IsAdmin` | src/components/Navbar.jsx:117 | `user?.role === 'ADMIN'`, the test that guards the admin links at lines 117 and 208 |
| `Navbar.IsOrganizerCharacterized` | src/components/Navbar.jsx:15 | `isOrganizer` holds iff the role is ORGANIZER or ADMIN. An admin is an organizer |
| `Navbar.CreateClick` | src/components/Navbar.jsx:23-31 | A non-organizer's click is prevented with a toast. An organizer is sent to /create-event. The mobile menu is closed either way |
| `Navbar.VisibleLinks` | src/components/Navbar.jsx:49-244 | The Admin Dashboard link appears only when signed in with role exactly ADMIN, and does appear when a menu is open. Create/My Events appear iff signed in. Sign In/Join Now appear iff signed out |
| `Navbar.HandleLogout` | src/components/Navbar.jsx:17-21 | Logout runs, the page moves to '/', and the user menu is closed |
| `Navbar.LinksAfterLogout` | src/components/Navbar.jsx:17-21 | After logout only Discover, Sign In and Join Now can be visible |
| `Navbar.RestoredPrefixedRoleLosesRights` | src/context/AuthContext.jsx:46-53 | A restored token with role ROLE_ADMIN is neither organizer nor admin. Logging in with it gives ADMIN |
| `MyEvents.Normalize` | src/pages/MyEvents.jsx:25-28 | `created` and `registered` are the response's lists, or [] when the response or the field is missing |
| `MyEvents.LoadBegin` | src/pages/MyEvents.jsx:21-24 | Loading is set and the user's events are requested |
| `MyEvents.LoadDone` | src/pages/MyEvents.jsx:21-35 | Loading ends false. Success stores the normalized lists. Failure keeps the old lists and shows a toast |
| `MyEvents.LoadAlwaysEnds` | src/pages/MyEvents.jsx:32-34 | After any load, whatever the answer, loading is false |
| `MyEvents.HasUserId` | src/pages/MyEvents.jsx:38 | `user?.id` is truthy: a user is present and its id is not 0 |
| `MyEvents.Mount` | src/pages/MyEvents.jsx:37-41 | The page is the initial one: empty lists, loading. Its events are requested iff the user has a (truthy) id, and otherwise there is no effect, so the spinner stays |
| `MyEvents.CanCreate` | src/pages/MyEvents.jsx:229 | Holds iff the role is exactly ORGANIZER or ADMIN, the test at lines 229 and 317 |
| `MyEvents.CreateButtons` | src/pages/MyEvents.jsx:229-317 | The header button is shown iff the role is ORGANIZER or ADMIN and the page is not loading, on either tab. The first-event button also needs the created tab to be open and empty. No other button appears |
| `MyEvents.TabCounts` | src/pages/MyEvents.jsx:260-275 | The two tab counters: the length of the registered list, then of the created list |
| `MyEvents.CountsAfterLoad` | src/pages/MyEvents.jsx:260-275 | After a load, the tab counters are the lengths of the registered and created lists in the response, 0 for a missing list |
| `MyEvents.RemoveBegin` | src/pages/MyEvents.jsx:74-98 | Declining the confirm for leave or delete makes no call. Confirming requests the leave or the delete |
| `MyEvents.RemoveDone` | src/pages/MyEvents.jsx:78-97 | Success toasts 'Successfully left the event' or 'Event deleted successfully', keeps the lists and reloads them. Failure leaves the page as it is and shows "Failed to leave event" or "Failed to delete event" |

## Left out

- The event service is a thin REST wrapper. Each call is an abstract `Request` whose answer is an input to the matching `…Done` function. Capacity, duplicate-registration and ownership checks happen on the server and are not modelled.
- The token decoder and generator (jwtUtils) are not part of this model. They are uninterpreted function parameters. There is no signature check.
- Claims: `id` and `email` are always present in the model. A token lacking them is outside the model; only a missing `role` or `exp` is modelled.
- `PrivateRoute` is not part of this model, so the per-path role requirements of the router are not modelled.
- The map component, event cards, the not-found page, the forgot/reset password pages and the mock API timers are presentational or single network calls.
- `authService.logout` resolves immediately and `getCurrentUser` answers `{ success: true }` after the mock delay. Neither changes any state, so there is nothing to model beyond the delay, and timers are not modelled.
- `PASSWORD_MIN_LENGTH` (6) and `NAME_MIN_LENGTH` (2) are declared as constants. The login and signup pages that use them are not part of this model.
- Date formatting (date-fns), toasts' display, animations and `console` logging are omitted. Toasts are recorded only as effects.
- Case folding is ASCII only. `toLowerCase` on non-ASCII letters is not modelled.
- Async interleaving is not modelled. Each `…Begin`/`…Done` pair runs in sequence, and results of superseded requests are not discarded.
- `AdminDashboard.ActiveRowsMatchStats` holds for rows rendered at the instant of the load. The source reads the clock again at render time.
- `CreateEvent.Validate`: `maxCapacity` is a real number or empty. Non-numeric input, which a number field cannot produce, is not modelled.
- `CreateEvent.ClickSubmit`: the browser's URL syntax check is the uninterpreted parameter `isUrl`. Today's date (`toISOString`, so UTC) is the parameter `today`.
- `CreateEvent.ClickSubmit`: the date order is character order, which is right for four-digit years; years above 9999 are not modelled.
- `CreateEvent.ClickSubmit`: unparsable text in a number field (the browser's bad-input state) is not modelled; the draft holds already-parsed values.
- `CreateEvent.ClickSubmit`: edits to the draft are not events of the model, so the form library's re-validation on change after the first submit is not modelled.
- `EventDetails.JoinBegin` with no loaded event: the thrown TypeError's message is recorded as a literal string.
- The rendering crash that follows a non-array dashboard body is not modelled.

=== FILE: admin_dashboard.dfy ===
/**
 * The admin dashboard: the statistics computed from the loaded events, the
 * Active/Past status of each row, and the confirm-guarded delete.
 */
module AdminDashboard {
  import opened Wrappers
  import opened Events

  const MOCK_TOTAL_USERS := 2500

  datatype Stats = Stats(totalUsers: int, totalEvents: int, totalRegistrations: int, activeEvents: int)

  const InitialStats := Stats(MOCK_TOTAL_USERS, 0, 0, 0)

  /** Reference sum of `registeredCount` over the events. */
  function SumRegistered(events: seq<Event>): int {
    if |events| == 0 then 0 else events[0].registeredCount + SumRegistered(events[1..])
  }

  /** `reduce((sum, event) => sum + event.registeredCount, acc)`: a left fold. */
  function ReduceRegistered(events: seq<Event>, acc: int): (r: int)
    ensures r == acc + SumRegistered(events)
  {
    if |events| == 0 then acc else ReduceRegistered(events[1..], acc + events[0].registeredCount)
  }

  /** `filter(event => new Date(event.date) > new Date())`. */
  function UpcomingEvents(events: seq<Event>, now: int): (r: seq<Event>)
    ensures |r| <= |events|
    ensures forall e :: e in r <==> e in events && IsUpcoming(e, now)
  {
    if |events| == 0 then []
    else (if IsUpcoming(events[0], now) then [events[0]] else []) + UpcomingEvents(events[1..], now)
  }

  /** The statistics of a loaded list at time `now`. */
  function ComputeStats(events: seq<Event>, now: int): (r: Stats)
    ensures r.totalUsers == MOCK_TOTAL_USERS
    ensures r.totalEvents == |events|
    ensures r.totalRegistrations == SumRegistered(events)
    ensures 0 <= r.activeEvents <= r.totalEvents
  {
    Stats(MOCK_TOTAL_USERS, |events|, ReduceRegistered(events, 0), |UpcomingEvents(events, now)|)
  }

  /** With counts that are not negative, the registration total is not negative. */
  lemma {:induction false} RegistrationsNonNegative(events: seq<Event>)
    requires forall i :: 0 <= i < |events| ==> events[i].registeredCount >= 0
    ensures SumRegistered(events) >= 0
  {
    if |events| > 0 {
      RegistrationsNonNegative(events[1..]);
    }
  }

  /** The status badge of one row. */
  function RowStatus(e: Event, now: int): (status: string)
    ensures status == "Active" <==> IsUpcoming(e, now)
    ensures status == "Active" || status == "Past"
  {
    if IsUpcoming(e, now) then "Active" else "Past"
  }

  /** How many rows show a given status. */
  function CountStatus(events: seq<Event>, now: int, status: string): nat {
    if |events| == 0 then 0
    else (if RowStatus(events[0], now) == status then 1 else 0) + CountStatus(events[1..], now, status)
  }

  /** Rendered at the same instant as the load, the Active rows number `activeEvents` and
      the Active and Past rows together number `totalEvents`. */
  lemma {:induction false} ActiveRowsMatchStats(events: seq<Event>, now: int)
    ensures CountStatus(events, now, "Active") == ComputeStats(events, now).activeEvents
    ensures CountStatus(events, now, "Active") + CountStatus(events, now, "Past") == ComputeStats(events, now).totalEvents
  {
    if |events| > 0 {
      ActiveRowsMatchStats(events[1..], now);
      assert |UpcomingEvents(events, now)| ==
             (if IsUpcoming(events[0], now) then 1 else 0) + |UpcomingEvents(events[1..], now)|;
    }
  }

  datatype Dashboard = Dashboard(stats: Stats, events: ListBody, loading: bool)

  const InitialDashboard := Dashboard(InitialStats, ArrayBody([]), true)

  datatype Step = Step(dashboard: Dashboard, effects: seq<Effect>)

  function LoadBegin(d: Dashboard): (r: Step)
    ensures r.dashboard == d.(loading := true) && r.effects == [Request(GetAllEvents)]
  {
    Step(d.(loading := true), [Request(GetAllEvents)])
  }

  /** `loadDashboardData` end. An array body sets the events and the stats; a body that is not
      an array is stored as is, after which `reduce` throws: the stats stay, a toast is shown.
      A failed call changes nothing but shows the toast. Loading is cleared on every path. */
  function LoadDone(d: Dashboard, answer: Result<ListBody>, now: int): (r: Step)
    ensures !r.dashboard.loading && NoRequest(r.effects)
    ensures answer.Ok? && answer.value.ArrayBody? ==>
              r.dashboard.stats == ComputeStats(answer.value.items, now) && r.dashboard.events == answer.value && r.effects == []
    ensures answer.Ok? && !answer.value.ArrayBody? ==>
              r.dashboard.stats == d.stats && r.dashboard.events == answer.value
    ensures answer.Err? ==> r.dashboard.stats == d.stats && r.dashboard.events == d.events
    ensures !(answer.Ok? && answer.value.ArrayBody?) ==> r.effects == [Notify(Error, "Failed to load dashboard data")]
  {
    match answer
    case Err(_) => Step(d.(loading := false), [Notify(Error, "Failed to load dashboard data")])
    case Ok(body) =>
      if body.ArrayBody? then Step(Dashboard(ComputeStats(body.items, now), body, false), [])
      else Step(d.(events := body, loading := false), [Notify(Error, "Failed to load dashboard data")])
  }

  /** Until a load brings an array, the cards show the mock user total and zero counts. */
  lemma FailedFirstLoadShowsInitialStats(answer: Result<ListBody>, now: int)
    requires !(answer.Ok? && answer.value.ArrayBody?)
    ensures LoadDone(LoadBegin(InitialDashboard).dashboard, answer, now).dashboard.stats == Stats(2500, 0, 0, 0)
  {
  }

  /** `handleDeleteEvent` start: nothing unless confirmed; then the delete is requested with
      the admin override id 1. */
  function DeleteBegin(d: Dashboard, confirmed: bool, eventId: int): (r: Step)
    ensures !confirmed ==> r == Step(d, [])
    ensures confirmed ==> r.dashboard == d && r.effects == [Request(DeleteEvent(eventId, 1))]
  {
    if !confirmed then Step(d, []) else Step(d, [Request(DeleteEvent(eventId, 1))])
  }

  /** `handleDeleteEvent` end: success toasts and reloads the data; failure only toasts. */
  function DeleteDone(d: Dashboard, answer: Outcome<string>): (r: Step)
    ensures answer.Pass? ==> r.dashboard == d.(loading := true) && r.effects == [Notify(Success, "Event deleted successfully"), Request(GetAllEvents)]
    ensures answer.Fail? ==> r == Step(d, [Notify(Error, "Failed to delete event")])
  {
    match answer
    case Pass =>
      var reload := LoadBegin(d);
      Step(reload.dashboard, [Notify(Success, "Event deleted successfully")] + reload.effects)
    case Fail(_) => Step(d, [Notify(Error, "Failed to delete event")])
  }
}

=== FILE: auth_context.dfy ===
/**
 * The session context: the reducer over the authentication state, the boot-time
 * restore from stored token, login, signup and logout. The token decoder is an
 * uninterpreted input, browser storage is a map, the clock is an integer `now` in
 * milliseconds.
 */
module AuthContext {
  import opened Wrappers
  import Text

  const TOKEN_KEY := "token"
  const ROLE_PREFIX := "ROLE_"

  /** A decoded token, or the user object built from one. Optional claims the token
      may lack are Options; `exp` is in seconds. */
  datatype Claims = Claims(id: int, name: Option<string>, email: string, role: Option<string>, exp: Option<int>)

  /** What the decoder gives for a token: it throws, returns nothing, or returns claims. */
  datatype Decoded = Throws | NoClaims | Decoded(claims: Claims)

  datatype AuthState = AuthState(user: Option<Claims>, token: Option<string>, isAuthenticated: bool, loading: bool)

  const Initial := AuthState(None, None, false, true)

  datatype Action =
    | LoginSuccess(user: Claims, token: string)
    | Logout
    | SetLoading(loading: bool)
    | Other(kind: string)

  /** Signed in exactly when a user and a token are held. */
  predicate Consistent(s: AuthState) {
    s.isAuthenticated == s.user.Some? && s.user.Some? == s.token.Some?
  }

  /** The reducer. */
  function Reduce(s: AuthState, a: Action): (r: AuthState)
    ensures a.LoginSuccess? ==>
              r.user == Some(a.user) && r.token == Some(a.token) && r.isAuthenticated && !r.loading
    ensures a.Logout? ==> r.user.None? && r.token.None? && !r.isAuthenticated && !r.loading
    ensures a.SetLoading? ==> r.loading == a.loading && r.(loading := s.loading) == s
    ensures a.Other? ==> r == s
    ensures Consistent(s) ==> Consistent(r)
  {
    match a
    case LoginSuccess(u, t) => s.(user := Some(u), token := Some(t), isAuthenticated := true, loading := false)
    case Logout => Initial.(loading := false)
    case SetLoading(b) => s.(loading := b)
    case Other(_) => s
  }

  /** LOGOUT forgets everything about the state it is applied to. */
  lemma LogoutForgetsHistory(s1: AuthState, s2: AuthState)
    ensures Reduce(s1, Logout) == Reduce(s2, Logout)
  {
  }

  /** The process-wide session: the context state plus browser storage. */
  datatype Session = Session(state: AuthState, storage: map<string, string>)

  /** `decoded.exp * 1000 > Date.now()`; a missing `exp` compares false. */
  predicate Unexpired(c: Claims, now: int) {
    c.exp.Some? && c.exp.value * 1000 > now
  }

  /** A non-empty stored token (the empty string is falsy, so it counts as absent). */
  predicate HasStoredToken(storage: map<string, string>) {
    TOKEN_KEY in storage && storage[TOKEN_KEY] != ""
  }

  /** The stored token restores a session: it decodes to claims that are not expired. */
  predicate Restorable(storage: map<string, string>, now: int, decode: string -> Decoded) {
    HasStoredToken(storage) && decode(storage[TOKEN_KEY]).Decoded? && Unexpired(decode(storage[TOKEN_KEY]).claims, now)
  }

  /** The mount-time effect: restore from storage, then clear the loading flag. */
  function Restore(storage: map<string, string>, now: int, decode: string -> Decoded): (r: Session)
    ensures !r.state.loading
    ensures Consistent(r.state)
    ensures r.state.isAuthenticated <==> Restorable(storage, now, decode)
    ensures Restorable(storage, now, decode) ==>
              && r.state.user == Some(decode(storage[TOKEN_KEY]).claims)
              && r.state.token == Some(storage[TOKEN_KEY])
              && r.storage == storage
    ensures !Restorable(storage, now, decode) ==>
              && r.state.user.None? && r.state.token.None?
              && r.storage == (if HasStoredToken(storage) then storage - {TOKEN_KEY} else storage)
  {
    var booted :=
      if !HasStoredToken(storage) then Session(Initial, storage)
      else
        var token := storage[TOKEN_KEY];
        match decode(token)
        case Decoded(c) =>
          if Unexpired(c, now) then Session(Reduce(Initial, LoginSuccess(c, token)), storage)
          else Session(Initial, storage - {TOKEN_KEY})
        case _ => Session(Initial, storage - {TOKEN_KEY});
    booted.(state := Reduce(booted.state, SetLoading(false)))
  }

  /** `decoded.role.replace('ROLE_', '')`: the first occurrence of ROLE_, wherever it is, is removed. */
  function NormalizeRole(role: string): string {
    Text.ReplaceFirst(role, ROLE_PREFIX, "")
  }

  lemma NormalizeStripsPrefix(rest: string)
    ensures NormalizeRole(ROLE_PREFIX + rest) == rest
  {
    var s := ROLE_PREFIX + rest;
    assert Text.OccursAt(s, ROLE_PREFIX, 0);
    assert s[5..] == rest;
  }

  lemma NormalizeKeepsUnprefixed(role: string)
    requires !Text.Includes(role, ROLE_PREFIX)
    ensures NormalizeRole(role) == role
  {
  }

  lemma NormalizeOrganizer()
    ensures NormalizeRole("ROLE_ORGANIZER") == "ORGANIZER"
  {
    assert "ROLE_ORGANIZER" == ROLE_PREFIX + "ORGANIZER";
    NormalizeStripsPrefix("ORGANIZER");
  }

  /** Only the first marker is removed. */
  lemma NormalizeRemovesOneMarker()
    ensures NormalizeRole("ROLE_ROLE_ADMIN") == "ROLE_ADMIN"
  {
    assert "ROLE_ROLE_ADMIN" == ROLE_PREFIX + "ROLE_ADMIN";
    NormalizeStripsPrefix("ROLE_ADMIN");
  }

  lemma NormalizeLeavesAdmin()
    ensures NormalizeRole("ADMIN") == "ADMIN"
  {
    assert forall i :: !Text.OccursAt("ADMIN", ROLE_PREFIX, i) by {
      assert "ADMIN"[0] != ROLE_PREFIX[0];
    }
  }

  /** The marker is removed even when it is not a prefix. */
  lemma NormalizeRemovesInnerMarker()
    ensures NormalizeRole("SUPERROLE_ADMIN") == "SUPERADMIN"
  {
    var s := "SUPERROLE_ADMIN";
    assert Text.OccursAt(s, ROLE_PREFIX, 5) by {
      assert s[5..10] == ROLE_PREFIX;
    }
    forall j | 0 <= j < 5 ensures !Text.OccursAt(s, ROLE_PREFIX, j) {
      assert s[j + 4] != '_';
    }
    assert s[..5] + "" + s[10..] == "SUPERADMIN";
  }

  datatype LoginError =
    | RequestFailed(message: string)   // the login request was rejected
    | DecodeFailed                     // the decoder threw on the returned token
    | MissingClaim                     // reading `decoded.id` or `decoded.role.replace` threw

  datatype LoginOutcome = LoginOutcome(session: Session, result: Outcome<LoginError>)

  /** The user object login dispatches: id, email and the normalized role only. */
  function LoginUser(c: Claims, role: string): Claims {
    Claims(c.id, None, c.email, Some(NormalizeRole(role)), None)
  }

  /** Login with the server's answer `response` (the token, or the request error). The token is
      stored before the claims are read, so a token whose claims are missing stays stored. */
  function Login(s: Session, response: Result<string>, decode: string -> Decoded): (r: LoginOutcome)
    ensures r.result.Pass? <==>
              response.Ok? && decode(response.value).Decoded? && decode(response.value).claims.role.Some?
    ensures r.result.Pass? ==>
              var c := decode(response.value).claims;
              && r.session.state == Reduce(s.state, LoginSuccess(LoginUser(c, c.role.value), response.value))
              && r.session.storage == s.storage[TOKEN_KEY := response.value]
    ensures r.result.Fail? ==> r.session.state == s.state
    ensures r.session.storage != s.storage ==> response.Ok? && !decode(response.value).Throws?
    ensures response.Ok? && !decode(response.value).Throws? ==> r.session.storage == s.storage[TOKEN_KEY := response.value]
  {
    match response
    case Err(m) => LoginOutcome(s, Fail(RequestFailed(m)))
    case Ok(token) =>
      match decode(token)
      case Throws => LoginOutcome(s, Fail(DecodeFailed))
      case NoClaims => LoginOutcome(Session(s.state, s.storage[TOKEN_KEY := token]), Fail(MissingClaim))
      case Decoded(c) =>
        var stored := s.storage[TOKEN_KEY := token];
        match c.role
        case None => LoginOutcome(Session(s.state, stored), Fail(MissingClaim))
        case Some(role) => LoginOutcome(Session(Reduce(s.state, LoginSuccess(LoginUser(c, role), token)), stored), Pass)
  }

  /** Signup posts the profile, then logs in with the same credentials (`loginResponse`). */
  function Signup(s: Session, signupResponse: Outcome<string>, loginResponse: Result<string>, decode: string -> Decoded): (r: LoginOutcome)
    ensures signupResponse.Fail? ==> r == LoginOutcome(s, Fail(RequestFailed(signupResponse.error)))
    ensures signupResponse.Pass? ==> r == Login(s, loginResponse, decode)
  {
    match signupResponse
    case Fail(m) => LoginOutcome(s, Fail(RequestFailed(m)))
    case Pass => Login(s, loginResponse, decode)
  }

  /** Logout removes the stored token and dispatches LOGOUT. */
  function LogoutSession(s: Session): (r: Session)
    ensures TOKEN_KEY !in r.storage
    ensures forall k :: k in s.storage && k != TOKEN_KEY ==> k in r.storage && r.storage[k] == s.storage[k]
    ensures r.storage.Keys <= s.storage.Keys
    ensures r.state.user.None? && r.state.token.None? && !r.state.isAuthenticated && !r.state.loading
  {
    Session(Reduce(s.state, Logout), s.storage - {TOKEN_KEY})
  }

  /** After logout, a reload restores nothing. */
  lemma RestoreAfterLogout(s: Session, now: int, decode: string -> Decoded)
    ensures !Restore(LogoutSession(s).storage, now, decode).state.isAuthenticated
  {
  }

  /** A reload after a successful login restores the raw decoded claims: the role keeps any
      ROLE_ marker that login removed. */
  lemma RestoreAfterLoginKeepsRawClaims(s: Session, token: string, decode: string -> Decoded, now: int)
    requires token != ""
    requires decode(token).Decoded? && Unexpired(decode(token).claims, now)
    requires Login(s, Ok(token), decode).result.Pass?
    ensures var r := Restore(Login(s, Ok(token), decode).session.storage, now, decode);
            r.state.isAuthenticated && r.state.user == Some(decode(token).claims)
  {
  }

  /** One login step, on any of its paths, keeps a consistent session consistent. */
  lemma LoginPreservesConsistency(s: Session, response: Result<string>, decode: string -> Decoded)
    requires Consistent(s.state)
    ensures Consistent(Login(s, response, decode).session.state)
  {
  }
}

=== FILE: auth_service.dfy ===
/**
 * The in-memory user store of the mock authentication service: login by email and
 * password, signup with duplicate-email rejection and counter-allocated ids. Token
 * generation is an uninterpreted input; `now` stands for `new Date()`.
 */
module AuthService {
  import opened Wrappers
  import Constants

  datatype StoredUser = StoredUser(id: int, name: string, email: string, password: string, role: string, createdAt: int)

  /** The user fields a response (and a generated token) carries: never the password. */
  datatype PublicUser = PublicUser(id: int, name: string, email: string, role: string)

  datatype Store = Store(users: seq<StoredUser>, nextUserId: int)

  datatype AuthResponse = AuthResponse(user: PublicUser, token: string)

  datatype SignupData = SignupData(name: string, email: string, password: string, role: Option<string>)

  datatype SignupOutcome = SignupOutcome(store: Store, result: Result<AuthResponse>)

  const INVALID_CREDENTIALS := "Invalid email or password"
  const EMAIL_EXISTS := "Email already exists"

  /** The three seeded accounts (created 2024-01-01, -02, -03 at midnight UTC) and the counter at 4. */
  const Seeded := Store([
    StoredUser(1, "Demo User", "user@demo.com", "password123", "USER", 1704067200000),
    StoredUser(2, "Event Organizer", "organizer@demo.com", "password123", "ORGANIZER", 1704153600000),
    StoredUser(3, "System Admin", "admin@demo.com", "password123", "ADMIN", 1704240000000)
  ], 4)

  function Public(u: StoredUser): PublicUser {
    PublicUser(u.id, u.name, u.email, u.role)
  }

  predicate HasCredentials(u: StoredUser, email: string, password: string) {
    u.email == email && u.password == password
  }

  /** `Array.prototype.find` on email and password, from index `from`: the first matching index. */
  function FindCredentials(users: seq<StoredUser>, email: string, password: string, from: nat): (r: Option<nat>)
    requires from <= |users|
    ensures r.Some? ==> from <= r.value < |users| && HasCredentials(users[r.value], email, password)
    ensures r.Some? ==> forall j :: from <= j < r.value ==> !HasCredentials(users[j], email, password)
    ensures r.None? ==> forall j :: from <= j < |users| ==> !HasCredentials(users[j], email, password)
    decreases |users| - from
  {
    if from == |users| then None
    else if HasCredentials(users[from], email, password) then Some(from)
    else FindCredentials(users, email, password, from + 1)
  }

  /** Login succeeds iff some stored user has both the email and the password; it answers
      with the first such user's public fields and a token generated from them. */
  function Login(store: Store, email: string, password: string, generate: PublicUser -> string): (r: Result<AuthResponse>)
    ensures r.Ok? <==> exists i :: 0 <= i < |store.users| && HasCredentials(store.users[i], email, password)
    ensures r.Err? ==> r.message == INVALID_CREDENTIALS
    ensures r.Ok? ==> exists i ::
              && 0 <= i < |store.users| && HasCredentials(store.users[i], email, password)
              && (forall j :: 0 <= j < i ==> !HasCredentials(store.users[j], email, password))
              && r.value == AuthResponse(Public(store.users[i]), generate(Public(store.users[i])))
  {
    match FindCredentials(store.users, email, password, 0)
    case None => Err(INVALID_CREDENTIALS)
    case Some(i) =>
      var u := Public(store.users[i]);
      Ok(AuthResponse(u, generate(u)))
  }

  /** `Array.prototype.find` on email alone. */
  function FindEmail(users: seq<StoredUser>, email: string, from: nat): (r: Option<nat>)
    requires from <= |users|
    ensures r.Some? ==> from <= r.value < |users| && users[r.value].email == email
    ensures r.None? ==> forall j :: from <= j < |users| ==> users[j].email != email
    decreases |users| - from
  {
    if from == |users| then None
    else if users[from].email == email then Some(from)
    else FindEmail(users, email, from + 1)
  }

  /** `userData.role || 'USER'`: a missing or empty role becomes USER. */
  function DefaultRole(role: Option<string>): (r: string)
    ensures role.None? || role.value == "" ==> r == Constants.RoleName(Constants.User)
    ensures role.Some? && role.value != "" ==> r == role.value
    ensures r != ""
  {
    if role.Some? && role.value != "" then role.value else Constants.RoleName(Constants.User)
  }

  /** Signup rejects a known email; otherwise it appends one user with id `nextUserId` and bumps the counter. */
  function Signup(store: Store, data: SignupData, now: int, generate: PublicUser -> string): (r: SignupOutcome)
    ensures r.result.Err? <==> exists i :: 0 <= i < |store.users| && store.users[i].email == data.email
    ensures r.result.Err? ==> r.result.message == EMAIL_EXISTS && r.store == store
    ensures r.result.Ok? ==>
              var u := StoredUser(store.nextUserId, data.name, data.email, data.password, DefaultRole(data.role), now);
              && r.store == Store(store.users + [u], store.nextUserId + 1)
              && r.result.value == AuthResponse(Public(u), generate(Public(u)))
  {
    if FindEmail(store.users, data.email, 0).Some? then SignupOutcome(store, Err(EMAIL_EXISTS))
    else
      var u := StoredUser(store.nextUserId, data.name, data.email, data.password, DefaultRole(data.role), now);
      SignupOutcome(Store(store.users + [u], store.nextUserId + 1), Ok(AuthResponse(Public(u), generate(Public(u)))))
  }

  /** Ids are pairwise distinct and all below the counter. */
  predicate WellFormed(store: Store) {
    && (forall i, j :: 0 <= i < j < |store.users| ==> store.users[i].id != store.users[j].id)
    && (forall i :: 0 <= i < |store.users| ==> store.users[i].id < store.nextUserId)
  }

  /** Emails are pairwise distinct. */
  predicate UniqueEmails(store: Store) {
    forall i, j :: 0 <= i < j < |store.users| ==> store.users[i].email != store.users[j].email
  }

  lemma SeededWellFormed()
    ensures WellFormed(Seeded) && UniqueEmails(Seeded)
  {
  }

  /** Signup keeps ids distinct and emails distinct. */
  lemma SignupPreservesInvariants(store: Store, data: SignupData, now: int, generate: PublicUser -> string)
    requires WellFormed(store) && UniqueEmails(store)
    ensures WellFormed(Signup(store, data, now, generate).store)
    ensures UniqueEmails(Signup(store, data, now, generate).store)
  {
  }

  /** After a successful signup, logging in with the same email and password answers with the new user. */
  lemma LoginAfterSignup(store: Store, data: SignupData, now: int, generate: PublicUser -> string)
    requires Signup(store, data, now, generate).result.Ok?
    ensures var r := Signup(store, data, now, generate);
            Login(r.store, data.email, data.password, generate) == r.result
  {
    var r := Signup(store, data, now, generate);
    var users := r.store.users;
    var n := |store.users|;
    assert HasCredentials(users[n], data.email, data.password);
    assert forall j :: 0 <= j < n ==> users[j] == store.users[j];
    assert forall j :: 0 <= j < n ==> !HasCredentials(users[j], data.email, data.password);
  }

  /** Signup never alters the accounts that were already there. */
  lemma SignupKeepsExistingUsers(store: Store, data: SignupData, now: int, generate: PublicUser -> string)
    ensures var s := Signup(store, data, now, generate).store;
            |s.users| >= |store.users| && s.users[..|store.users|] == store.users
  {
  }
}

=== FILE: constants.dfy ===
/** The shared constants of the client: role and category names and the form length minimums. */
module Constants {
  import opened Wrappers

  /** The three account roles. */
  datatype Role = User | Organizer | Admin

  /** The string each role is written as in tokens, user records and comparisons. */
  function RoleName(r: Role): string {
    match r
    case User => "USER"
    case Organizer => "ORGANIZER"
    case Admin => "ADMIN"
  }

  const ROLES: set<string> := {"USER", "ORGANIZER", "ADMIN"}

  /** Reads a role name back; only the three names are roles. */
  function ParseRole(s: string): (r: Option<Role>)
    ensures r.Some? <==> s in ROLES
    ensures r.Some? ==> RoleName(r.value) == s
  {
    if s == "USER" then Some(User)
    else if s == "ORGANIZER" then Some(Organizer)
    else if s == "ADMIN" then Some(Admin)
    else None
  }

  lemma RoleNameRoundTrip(r: Role)
    ensures ParseRole(RoleName(r)) == Some(r)
    ensures RoleName(r) in ROLES
  {
  }

  /** The three event categories. */
  datatype Category = Volunteer | Donation | Community

  function CategoryName(c: Category): string {
    match c
    case Volunteer => "VOLUNTEER"
    case Donation => "DONATION"
    case Community => "COMMUNITY"
  }

  const EVENT_CATEGORIES: set<string> := {"VOLUNTEER", "DONATION", "COMMUNITY"}

  function ParseCategory(s: string): (r: Option<Category>)
    ensures r.Some? <==> s in EVENT_CATEGORIES
    ensures r.Some? ==> CategoryName(r.value) == s
  {
    if s == "VOLUNTEER" then Some(Volunteer)
    else if s == "DONATION" then Some(Donation)
    else if s == "COMMUNITY" then Some(Community)
    else None
  }

  lemma CategoryNameRoundTrip(c: Category)
    ensures ParseCategory(CategoryName(c)) == Some(c)
    ensures CategoryName(c) in EVENT_CATEGORIES
  {
  }

  const PASSWORD_MIN_LENGTH: nat := 6
  const NAME_MIN_LENGTH: nat := 2

  /** The role test shared by the navigation bar and the My Events page: ORGANIZER or ADMIN. */
  predicate HasOrganizerRights(role: string) {
    role == RoleName(Organizer) || role == RoleName(Admin)
  }
}

=== FILE: create_event.dfy ===
/**
 * The create-event page: the field rules registered with the form library, the
 * offered category options, and the submit flow guarded by `loading`.
 */
module CreateEvent {
  import opened Wrappers
  import Constants
  import Text
  import opened Events

  datatype Field = Title | Category | MaxCapacity | Description | Location | Date | Time | Latitude | Longitude | ImageUrl

  const TITLE_REQUIRED := "Event title is required"
  const TITLE_SHORT := "Title must be at least 5 characters"
  const CATEGORY_REQUIRED := "Category is required"
  const CAPACITY_REQUIRED := "Maximum capacity is required"
  const CAPACITY_LOW := "Capacity must be at least 1"
  const CAPACITY_HIGH := "Capacity cannot exceed 1000"
  const DESCRIPTION_REQUIRED := "Event description is required"
  const DESCRIPTION_SHORT := "Description must be at least 20 characters"
  const LOCATION_REQUIRED := "Event location is required"
  const DATE_REQUIRED := "Event date is required"
  const TIME_REQUIRED := "Event time is required"

  /** The radio values offered for the category, in display order. */
  const CategoryOptions: seq<Constants.Category> := [Constants.Volunteer, Constants.Donation, Constants.Community]

  /** The offered values are exactly the three event categories. */
  lemma CategoryOptionsAreCategories()
    ensures forall c: Constants.Category :: c in CategoryOptions
    ensures (set i | 0 <= i < |CategoryOptions| :: Constants.CategoryName(CategoryOptions[i])) == Constants.EVENT_CATEGORIES
  {
    forall c: Constants.Category ensures c in CategoryOptions {
      match c
      case Volunteer => assert CategoryOptions[0] == c;
      case Donation => assert CategoryOptions[1] == c;
      case Community => assert CategoryOptions[2] == c;
    }
    var names := set i | 0 <= i < |CategoryOptions| :: Constants.CategoryName(CategoryOptions[i]);
    assert Constants.CategoryName(CategoryOptions[0]) in names;
    assert Constants.CategoryName(CategoryOptions[1]) in names;
    assert Constants.CategoryName(CategoryOptions[2]) in names;
  }

  /** `required` first, then `minLength` on the JavaScript length: the message of the first
      rule a text value breaks. */
  function TextRule(value: string, minLength: nat, requiredMessage: string, shortMessage: string): Option<string> {
    if value == "" then Some(requiredMessage)
    else if Text.JsLength(value) < minLength then Some(shortMessage)
    else None
  }

  /** The error a field shows for the draft, if any. */
  function FieldError(d: EventDraft, f: Field): Option<string> {
    match f
    case Title => TextRule(d.title, 5, TITLE_REQUIRED, TITLE_SHORT)
    case Category => if d.category.None? then Some(CATEGORY_REQUIRED) else None
    case MaxCapacity =>
      if d.maxCapacity.None? then Some(CAPACITY_REQUIRED)
      else if d.maxCapacity.value > 1000.0 then Some(CAPACITY_HIGH)
      else if d.maxCapacity.value < 1.0 then Some(CAPACITY_LOW)
      else None
    case Description => TextRule(d.description, 20, DESCRIPTION_REQUIRED, DESCRIPTION_SHORT)
    case Location => TextRule(d.location, 0, LOCATION_REQUIRED, "")
    case Date => TextRule(d.date, 0, DATE_REQUIRED, "")
    case Time => TextRule(d.time, 0, TIME_REQUIRED, "")
    case Latitude => None
    case Longitude => None
    case ImageUrl => None
  }

  const AllFields: set<Field> := {Title, Category, MaxCapacity, Description, Location, Date, Time, Latitude, Longitude, ImageUrl}

  /** The form's error map: which fields are in error, and with which message. */
  function Validate(d: EventDraft): (errors: map<Field, string>)
    ensures Title in errors <==> Text.JsLength(d.title) < 5
    ensures Title in errors ==> errors[Title] == (if d.title == "" then TITLE_REQUIRED else TITLE_SHORT)
    ensures Category in errors <==> d.category.None?
    ensures Category in errors ==> errors[Category] == CATEGORY_REQUIRED
    ensures MaxCapacity in errors <==> d.maxCapacity.None? || d.maxCapacity.value < 1.0 || d.maxCapacity.value > 1000.0
    ensures MaxCapacity in errors ==>
              errors[MaxCapacity] == (if d.maxCapacity.None? then CAPACITY_REQUIRED
                                      else if d.maxCapacity.value < 1.0 then CAPACITY_LOW else CAPACITY_HIGH)
    ensures Description in errors <==> Text.JsLength(d.description) < 20
    ensures Description in errors ==>
              errors[Description] == (if d.description == "" then DESCRIPTION_REQUIRED else DESCRIPTION_SHORT)
    ensures (Location in errors <==> d.location == "") && (Date in errors <==> d.date == "") && (Time in errors <==> d.time == "")
    ensures Location in errors ==> errors[Location] == LOCATION_REQUIRED
    ensures Date in errors ==> errors[Date] == DATE_REQUIRED
    ensures Time in errors ==> errors[Time] == TIME_REQUIRED
    ensures Latitude !in errors && Longitude !in errors && ImageUrl !in errors
  {
    map f | f in AllFields && FieldError(d, f).Some? :: FieldError(d, f).value
  }

  /** A draft passes validation iff every rule holds; only then is it submitted. */
  lemma ValidDraftCharacterized(d: EventDraft)
    ensures Validate(d) == map[] <==>
              && Text.JsLength(d.title) >= 5 && d.category.Some?
              && d.maxCapacity.Some? && 1.0 <= d.maxCapacity.value <= 1000.0
              && Text.JsLength(d.description) >= 20 && d.location != "" && d.date != "" && d.time != ""
  {
    var e := Validate(d);
    if e != map[] {
      var f :| f in e;
    }
  }

  /** The page state: `loading` is set while the create call is in flight. */
  datatype Page = Page(loading: bool, errors: map<Field, string>)

  const InitialPage := Page(false, map[])

  datatype Step = Step(page: Page, effects: seq<Effect>)

  /** The submit button is disabled while loading. */
  predicate SubmitEnabled(p: Page) {
    !p.loading
  }

  /** The browser's constraint validation, which runs before the form library's handler
      and blocks the submit event when it fails: the number field's `min="1"`, `max="1000"`
      and default step 1, the date field's `min` of `today` (a `yyyy-mm-dd` string), and
      the url field's syntax, judged by `isUrl`. An empty field meets all three. */
  predicate NativeValid(d: EventDraft, today: string, isUrl: string -> bool) {
    && (d.maxCapacity.None? ||
        (1.0 <= d.maxCapacity.value <= 1000.0 && d.maxCapacity.value == d.maxCapacity.value.Floor as real))
    && (d.date == "" || !Text.LexLess(d.date, today))
    && (d.imageUrl == "" || isUrl(d.imageUrl))
  }

  /** A click on the submit button: nothing while disabled or while the browser's own checks
      fail (the form's errors are left as they were); the errors when the form library's rules
      fail; otherwise `loading` is set and the create call is issued with the organizer's id. */
  function ClickSubmit(p: Page, d: EventDraft, userId: int, today: string, isUrl: string -> bool): (r: Step)
    ensures !SubmitEnabled(p) ==> r == Step(p, [])
    ensures !NativeValid(d, today, isUrl) ==> r == Step(p, [])
    ensures SubmitEnabled(p) && NativeValid(d, today, isUrl) && Validate(d) != map[] ==>
              r.page == p.(errors := Validate(d)) && r.effects == []
    ensures SubmitEnabled(p) && NativeValid(d, today, isUrl) && Validate(d) == map[] ==>
              r.page.loading && r.effects == [Request(CreateEvent(d, userId))]
    ensures (exists i :: 0 <= i < |r.effects| && r.effects[i].Request?) <==>
              SubmitEnabled(p) && NativeValid(d, today, isUrl) && Validate(d) == map[]
  {
    if p.loading || !NativeValid(d, today, isUrl) then Step(p, [])
    else
      var errors := Validate(d);
      if errors != map[] then Step(p.(errors := errors), [])
      else
        var r := Step(Page(true, errors), [Request(CreateEvent(d, userId))]);
        assert r.effects[0].Request?;
        r
  }

  /** The date field's `min` is inclusive: a draft dated exactly today meets the date check,
      so it passes the browser's checks iff it would with the date left empty. */
  lemma {:induction false} TodayMeetsDateMin(d: EventDraft, today: string, isUrl: string -> bool)
    ensures NativeValid(d.(date := today), today, isUrl) <==> NativeValid(d.(date := ""), today, isUrl)
  {
    Text.LexLessIrreflexive(today);
  }

  /** Once the browser's checks pass, capacity can only be in error for being empty: the
      form library's range messages are never reached through a submit. */
  lemma NativeChecksPreemptRange(d: EventDraft, today: string, isUrl: string -> bool)
    requires NativeValid(d, today, isUrl)
    ensures MaxCapacity in Validate(d) <==> d.maxCapacity.None?
    ensures MaxCapacity in Validate(d) ==> Validate(d)[MaxCapacity] == CAPACITY_REQUIRED
  {
  }

  /** A draft every rule accepts, as of 2026-10-10. */
  const SampleDraft := EventDraft("Beach cleanup", Some(Constants.Volunteer), Some(50.0),
                                  "Bring gloves and a water bottle", "Pier 7", "2026-11-01", "09:00",
                                  "", "", "https://example.com/a.jpg")

  lemma SampleDraftAccepted(isUrl: string -> bool)
    requires isUrl("https://example.com/a.jpg")
    ensures Validate(SampleDraft) == map[] && NativeValid(SampleDraft, "2026-10-10", isUrl)
  {
    assert NativeValid(SampleDraft, "2026-10-10", isUrl) by {
      assert !Text.LexLess("2026-11-01", "2026-10-10");
      assert (50.0).Floor == 50;
    }
    assert Validate(SampleDraft) == map[] by {
      assert Text.JsLength(SampleDraft.description) >= 20 && Text.JsLength(SampleDraft.title) >= 5;
      ValidDraftCharacterized(SampleDraft);
    }
  }

  /** Drafts the form library accepts but the browser stops: a past date, a fractional
      capacity, a malformed image URL. No call is made for any of them. */
  lemma NativeChecksBlock(p: Page, userId: int, isUrl: string -> bool)
    requires !isUrl("not a url")
    ensures ClickSubmit(p, SampleDraft.(date := "2000-01-01"), userId, "2026-10-10", isUrl).effects == []
    ensures ClickSubmit(p, SampleDraft.(maxCapacity := Some(2.5)), userId, "2026-10-10", isUrl).effects == []
    ensures ClickSubmit(p, SampleDraft.(imageUrl := "not a url"), userId, "2026-10-10", isUrl).effects == []
  {
    assert !NativeValid(SampleDraft.(date := "2000-01-01"), "2026-10-10", isUrl) by {
      assert Text.LexLess("2000-01-01", "2026-10-10");
    }
    assert !NativeValid(SampleDraft.(maxCapacity := Some(2.5)), "2026-10-10", isUrl) by {
      assert (2.5).Floor == 2;
    }
    assert !NativeValid(SampleDraft.(imageUrl := "not a url"), "2026-10-10", isUrl);
  }

  /** Lengths are JavaScript lengths: three emoji make a six-unit title, which passes the
      five-character minimum, while three letters do not. */
  lemma TitleLengthCountsCodeUnits(d: EventDraft)
    ensures Title !in Validate(d.(title := "\U{1F600}\U{1F600}\U{1F600}"))
    ensures Validate(d.(title := "abc"))[Title] == TITLE_SHORT
  {
    assert Text.JsLength("\U{1F600}\U{1F600}\U{1F600}") == 6;
    assert Text.JsLength("abc") == 3;
  }

  /** The create call's answer: on success a toast and a move to My Events, on failure a toast
      with the error's message; `loading` is cleared on both paths. */
  function SubmitDone(p: Page, answer: Outcome<string>): (r: Step)
    ensures !r.page.loading && NoRequest(r.effects)
    ensures answer.Pass? <==> Navigate("/my-events") in r.effects
    ensures answer.Pass? ==>
              r.page == p.(loading := false) && r.effects == [Notify(Success, "Event created successfully!"), Navigate("/my-events")]
    ensures answer.Fail? ==>
              r.page == p.(loading := false) && r.effects == [Notify(Error, MessageOr(answer.error, "Failed to create event"))]
  {
    match answer
    case Pass => Step(p.(loading := false), [Notify(Success, "Event created successfully!"), Navigate("/my-events")])
    case Fail(m) => Step(p.(loading := false), [Notify(Error, MessageOr(m, "Failed to create event"))])
  }

  /** While the create call is in flight a second click issues nothing. */
  lemma NoDoubleSubmit(p: Page, d: EventDraft, d2: EventDraft, userId: int, today: string, isUrl: string -> bool)
    requires SubmitEnabled(p) && NativeValid(d, today, isUrl) && Validate(d) == map[]
    ensures ClickSubmit(ClickSubmit(p, d, userId, today, isUrl).page, d2, userId, today, isUrl).effects == []
  {
  }
}

=== FILE: email.dfy ===
/**
 * The EMAIL validation rule, `^[A-Z0-9._%+-]+@[A-Z0-9.-]+\.[A-Z]{2,}$` with the
 * case-insensitive flag. `IsValidEmail` decides it by scanning; `EmailShape` states
 * the regular expression's meaning directly; `IsValidEmailCorrect` connects them.
 */
module EmailRule {
  import Text

  predicate IsLetter(c: char) { 'A' <= c <= 'Z' || 'a' <= c <= 'z' }
  predicate IsDigit(c: char) { '0' <= c <= '9' }

  /** `[A-Z0-9._%+-]` under the case-insensitive flag. */
  predicate IsLocalChar(c: char) {
    IsLetter(c) || IsDigit(c) || c == '.' || c == '_' || c == '%' || c == '+' || c == '-'
  }

  /** `[A-Z0-9.-]` under the case-insensitive flag. */
  predicate IsDomainChar(c: char) {
    IsLetter(c) || IsDigit(c) || c == '.' || c == '-'
  }

  /**
   * `s` splits as local `@` domain `.` tld with `at` the index of the '@' and `dot` the
   * index of the final '.': a non-empty local part, a non-empty domain, a tld of at least two letters.
   */
  predicate ShapeAt(s: string, at: int, dot: int) {
    && 0 < at && at + 2 <= dot && dot + 3 <= |s|
    && s[at] == '@' && s[dot] == '.'
    && (forall k :: 0 <= k < at ==> IsLocalChar(s[k]))
    && (forall k :: at < k < dot ==> IsDomainChar(s[k]))
    && (forall k :: dot < k < |s| ==> IsLetter(s[k]))
  }

  /** The set of strings the regular expression matches. */
  ghost predicate EmailShape(s: string) {
    exists at, dot :: ShapeAt(s, at, dot)
  }

  /** The end of the longest run of local-part characters starting at `i`. */
  function LocalRunEnd(s: string, i: nat): (r: nat)
    requires i <= |s|
    ensures i <= r <= |s|
    ensures forall k :: i <= k < r ==> IsLocalChar(s[k])
    ensures r == |s| || !IsLocalChar(s[r])
    decreases |s| - i
  {
    if i < |s| && IsLocalChar(s[i]) then LocalRunEnd(s, i + 1) else i
  }

  /** The start of the longest run of letters ending just before `j`. */
  function LetterRunStart(s: string, j: nat): (r: nat)
    requires j <= |s|
    ensures r <= j
    ensures forall k :: r <= k < j ==> IsLetter(s[k])
    ensures r == 0 || !IsLetter(s[r - 1])
  {
    if j > 0 && IsLetter(s[j - 1]) then LetterRunStart(s, j - 1) else j
  }

  /** The validator: the local part ends at the first non-local character, which must be '@';
      the tld is the trailing run of letters, preceded by the '.' that ends the domain. */
  function IsValidEmail(s: string): bool {
    var at := LocalRunEnd(s, 0);
    var tld := LetterRunStart(s, |s|);
    var dot := tld - 1;
    && 0 < at < |s| && s[at] == '@'
    && |s| - tld >= 2 && at + 2 <= dot
    && s[dot] == '.'
    && (forall k :: at < k < dot ==> IsDomainChar(s[k]))
  }

  /** The validator accepts exactly the strings the regular expression describes. */
  lemma IsValidEmailCorrect(s: string)
    ensures IsValidEmail(s) <==> EmailShape(s)
  {
    var at := LocalRunEnd(s, 0);
    var tld := LetterRunStart(s, |s|);
    if IsValidEmail(s) {
      assert ShapeAt(s, at, tld - 1);
    }
    if EmailShape(s) {
      var a, d :| ShapeAt(s, a, d);
      // '@' is not a local character, so the local run stops exactly at the '@'.
      assert at == a;
      // '.' is not a letter, so the letter run starts right after the final '.'.
      assert tld == d + 1;
    }
  }

  /** Every accepted address contains exactly one '@'. */
  lemma AcceptedHasOneAt(s: string)
    requires IsValidEmail(s)
    ensures exists i :: 0 <= i < |s| && s[i] == '@' && forall j :: 0 <= j < |s| && j != i ==> s[j] != '@'
  {
    var at := LocalRunEnd(s, 0);
    var dot := LetterRunStart(s, |s|) - 1;
    forall j | 0 <= j < |s| && j != at
      ensures s[j] != '@'
    {
      if j < at { assert IsLocalChar(s[j]); }
      else if j < dot { assert IsDomainChar(s[j]); }
      else if j > dot { assert IsLetter(s[j]); }
    }
  }

  /** Two characters equal up to ASCII case are equal or both letters. */
  lemma SameFoldChars(x: char, y: char)
    requires Text.LowerChar(x) == Text.LowerChar(y)
    ensures x == y || (IsLetter(x) && IsLetter(y))
  {
  }

  /** The shape does not depend on the case of ASCII letters (the `i` flag). */
  lemma ShapeIgnoresCase(s: string, t: string, at: int, dot: int)
    requires |s| == |t|
    requires forall i :: 0 <= i < |s| ==> Text.LowerChar(s[i]) == Text.LowerChar(t[i])
    requires ShapeAt(s, at, dot)
    ensures ShapeAt(t, at, dot)
  {
    forall k | 0 <= k < |s|
      ensures s[k] == t[k] || (IsLetter(s[k]) && IsLetter(t[k]))
    {
      SameFoldChars(s[k], t[k]);
    }
  }

  /** Changing the case of ASCII letters never changes whether an address is accepted. */
  lemma AcceptanceIgnoresCase(s: string, t: string)
    requires |s| == |t|
    requires forall i :: 0 <= i < |s| ==> Text.LowerChar(s[i]) == Text.LowerChar(t[i])
    ensures IsValidEmail(s) == IsValidEmail(t)
  {
    IsValidEmailCorrect(s);
    IsValidEmailCorrect(t);
    if EmailShape(s) {
      var a, d :| ShapeAt(s, a, d);
      ShapeIgnoresCase(s, t, a, d);
    }
    if EmailShape(t) {
      var a, d :| ShapeAt(t, a, d);
      ShapeIgnoresCase(t, s, a, d);
    }
  }

  /** In particular, lower-casing an address does not change whether it is accepted. */
  lemma AcceptanceOfLowered(s: string)
    ensures IsValidEmail(Text.Lower(s)) == IsValidEmail(s)
  {
    Text.LowerIdempotent(s);
    var t := Text.Lower(s);
    assert forall i :: 0 <= i < |s| ==> Text.LowerChar(t[i]) == Text.LowerChar(s[i]);
    AcceptanceIgnoresCase(s, t);
  }

  lemma Examples()
    ensures IsValidEmail("user@demo.com")
    ensures !IsValidEmail("user@demo")
    ensures !IsValidEmail("a@b@c.io")
    ensures !IsValidEmail("@demo.com")
  {
    IsValidEmailCorrect("user@demo.com");
    assert ShapeAt("user@demo.com", 4, 9);
    var bad := "a@b@c.io";
    assert LocalRunEnd(bad, 0) == 1;
    assert LetterRunStart(bad, |bad|) == 6;
    assert !IsDomainChar(bad[3]);
  }
}

=== FILE: event_details.dfy ===
/**
 * The event details page: loading one event, the full-capacity panel, the join
 * button's state, and the join handler with its `joining` flag.
 */
module EventDetails {
  import opened Wrappers
  import opened Events
  import AuthContext

  datatype Page = Page(eventId: int, event: Option<Event>, loading: bool, joining: bool)

  function InitialPage(eventId: int): Page {
    Page(eventId, None, true, false)
  }

  datatype Step = Step(page: Page, effects: seq<Effect>)

  /** `registeredCount >= maxCapacity`. */
  predicate IsFull(e: Event) {
    e.registeredCount >= e.maxCapacity
  }

  /** What the sidebar shows in place of the join action. */
  datatype JoinControl =
    | NoControl                                   // spinner, or the not-found screen
    | FullPanel                                   // "Event Full"
    | JoinButton(disabled: bool, caption: string)

  function Control(p: Page, isAuthenticated: bool): (c: JoinControl)
    ensures c.FullPanel? <==> !p.loading && p.event.Some? && IsFull(p.event.value)
    ensures c.JoinButton? <==> !p.loading && p.event.Some? && !IsFull(p.event.value)
    ensures c.JoinButton? ==> (c.disabled <==> p.joining || !isAuthenticated)
    ensures c.JoinButton? ==>
              c.caption == (if p.joining then "Joining..." else if isAuthenticated then "Join This Event" else "Sign In to Join")
  {
    if p.loading || p.event.None? then NoControl
    else if IsFull(p.event.value) then FullPanel
    else JoinButton(p.joining || !isAuthenticated,
                    if p.joining then "Joining..." else if isAuthenticated then "Join This Event" else "Sign In to Join")
  }

  /** `loadEvent` start. */
  function LoadBegin(p: Page): (r: Step)
    ensures r.page == p.(loading := true) && r.effects == [Request(GetEventById(p.eventId))]
  {
    Step(p.(loading := true), [Request(GetEventById(p.eventId))])
  }

  /** `loadEvent` end: the answer is stored as it is, even a null body, which the page then
      shows as "Event Not Found"; a failed call gives a toast and a move to '/'. Loading is
      cleared either way. */
  function LoadDone(p: Page, answer: Result<Option<Event>>): (r: Step)
    ensures !r.page.loading && NoRequest(r.effects)
    ensures answer.Ok? ==> r.page == p.(event := answer.value, loading := false) && r.effects == []
    ensures answer.Err? ==>
              r.page == p.(loading := false) && r.effects == [Notify(Error, "Failed to load event details"), Navigate("/")]
  {
    match answer
    case Ok(e) => Step(p.(event := e, loading := false), [])
    case Err(_) => Step(p.(loading := false), [Notify(Error, "Failed to load event details"), Navigate("/")])
  }

  /** The message of the TypeError thrown by reading `event.id` while `event` is null. */
  const NULL_EVENT_MESSAGE := "Cannot read properties of null (reading 'id')"

  /** `handleJoinEvent` start. A signed-out visitor is sent to /login and no call is made.
      Otherwise `joining` is set and the join requested with the event's and the user's id;
      with no event loaded, reading `event.id` throws and the catch and finally run at once. */
  function JoinBegin(p: Page, auth: AuthContext.AuthState): (r: Step)
    requires AuthContext.Consistent(auth)
    ensures !auth.isAuthenticated ==>
              r.page == p && r.effects == [Notify(Error, "Please sign in to join events"), Navigate("/login")]
    ensures auth.isAuthenticated && p.event.Some? ==>
              r.page == p.(joining := true) && r.effects == [Request(JoinEvent(p.event.value.id, Some(auth.user.value.id)))]
    ensures auth.isAuthenticated && p.event.None? ==>
              r.page == p.(joining := false) && r.effects == [Notify(Error, NULL_EVENT_MESSAGE)]
    ensures NoRequest(r.effects) <==> !(auth.isAuthenticated && p.event.Some?)
  {
    if !auth.isAuthenticated then Step(p, [Notify(Error, "Please sign in to join events"), Navigate("/login")])
    else if p.event.None? then Step(p.(joining := false), [Notify(Error, NULL_EVENT_MESSAGE)])
    else
      var r := Step(p.(joining := true), [Request(JoinEvent(p.event.value.id, Some(auth.user.value.id)))]);
      assert r.effects[0].Request?;
      r
  }

  /** `handleJoinEvent` end: `joining` cleared on both paths; success toasts and reloads the event. */
  function JoinDone(p: Page, answer: Outcome<string>): (r: Step)
    ensures !r.page.joining
    ensures answer.Pass? ==>
              r.page == p.(loading := true, joining := false)
              && r.effects == [Notify(Success, "Successfully joined the event!"), Request(GetEventById(p.eventId))]
    ensures answer.Fail? ==>
              r.page == p.(joining := false) && r.effects == [Notify(Error, MessageOr(answer.error, "Failed to join event"))]
  {
    match answer
    case Pass =>
      var reload := LoadBegin(p);
      Step(reload.page.(joining := false), [Notify(Success, "Successfully joined the event!")] + reload.effects)
    case Fail(m) => Step(p.(joining := false), [Notify(Error, MessageOr(m, "Failed to join event"))])
  }

  /** A click on the join control runs the handler only when an enabled button is rendered. */
  function ClickJoin(p: Page, auth: AuthContext.AuthState): (r: Step)
    requires AuthContext.Consistent(auth)
    ensures !Control(p, auth.isAuthenticated).JoinButton? || Control(p, auth.isAuthenticated).disabled ==> r == Step(p, [])
    ensures Control(p, auth.isAuthenticated).JoinButton? && !Control(p, auth.isAuthenticated).disabled ==> r == JoinBegin(p, auth)
  {
    var c := Control(p, auth.isAuthenticated);
    if c.JoinButton? && !c.disabled then JoinBegin(p, auth) else Step(p, [])
  }

  /** No join is requested while one is in flight, for a full event, or for a signed-out visitor. */
  lemma ClickJoinGuards(p: Page, auth: AuthContext.AuthState)
    requires AuthContext.Consistent(auth)
    ensures p.joining || !auth.isAuthenticated || p.loading ==> NoRequest(ClickJoin(p, auth).effects)
    ensures p.event.Some? && IsFull(p.event.value) ==> NoRequest(ClickJoin(p, auth).effects)
  {
  }

  /** A second click during the first join's call issues nothing: the double-submit guard. */
  lemma NoDoubleJoin(p: Page, auth: AuthContext.AuthState)
    requires AuthContext.Consistent(auth)
    requires !NoRequest(ClickJoin(p, auth).effects)
    ensures ClickJoin(ClickJoin(p, auth).page, auth).effects == []
  {
  }
}

=== FILE: events.dfy ===
/**
 * The event record the pages read, the create-event form values, the shapes a
 * list response may take, and the effects a page handler produces (service
 * requests, navigations and toasts).
 */
module Events {
  import opened Wrappers
  import Constants

  /** An event as the pages use it. `date` is None when `new Date(event.date)` is invalid;
      otherwise it is the instant in milliseconds. */
  datatype Event = Event(
    id: int,
    title: string,
    description: string,
    category: string,
    location: string,
    date: Option<int>,
    maxCapacity: int,
    registeredCount: int)

  /** The values of the create-event form. Empty text fields are "", an unselected
      category radio group is None, an empty number field is None. */
  datatype EventDraft = EventDraft(
    title: string,
    category: Option<Constants.Category>,
    maxCapacity: Option<real>,
    description: string,
    location: string,
    date: string,
    time: string,
    latitude: string,
    longitude: string,
    imageUrl: string)

  /** The body of a list response: a bare array, an object that may carry `created`
      and/or `events` arrays (a present array is truthy even when empty), or null. */
  datatype ListBody =
    | ArrayBody(items: seq<Event>)
    | ObjectBody(created: Option<seq<Event>>, events: Option<seq<Event>>)
    | NullBody

  /** The event service calls the pages issue, with the arguments the page passes. */
  datatype Call =
    | GetAllEvents
    | GetEventById(eventId: int)
    | JoinEvent(eventId: int, joiner: Option<int>)
    | LeaveEvent(eventId: int, userId: int)
    | DeleteEvent(eventId: int, userId: int)
    | GetUserEvents(userId: int)
    | CreateEvent(draft: EventDraft, userId: int)

  datatype ToastKind = Success | Error

  datatype Effect =
    | Request(call: Call)
    | Navigate(path: string)
    | Notify(kind: ToastKind, message: string)

  /** No service request among the effects. */
  predicate NoRequest(effects: seq<Effect>) {
    forall i :: 0 <= i < |effects| ==> !effects[i].Request?
  }

  /** `error.message || fallback`. */
  function MessageOr(message: string, fallback: string): string {
    if message != "" then message else fallback
  }

  /** `new Date(event.date) > new Date()`: an invalid date is never in the future. */
  predicate IsUpcoming(e: Event, now: int) {
    e.date.Some? && e.date.value > now
  }
}

=== FILE: home.dfy ===
/**
 * The home page: search and category filtering of the loaded events, the
 * normalization of the list response, and the join handler's sign-in guard.
 */
module Home {
  import opened Wrappers
  import Text
  import Seqs
  import opened Events

  const ALL := "ALL"

  /** `x.toLowerCase().includes(term.toLowerCase())`. */
  predicate ContainsIgnoringCase(x: string, term: string) {
    Text.Includes(Text.Lower(x), Text.Lower(term))
  }

  /** The search test on one event: the term in its title, description or location. */
  predicate MatchesSearch(e: Event, term: string) {
    ContainsIgnoringCase(e.title, term) || ContainsIgnoringCase(e.description, term) || ContainsIgnoringCase(e.location, term)
  }

  /** `filter` by the search test. */
  function SearchFilter(events: seq<Event>, term: string): (r: seq<Event>)
    ensures forall e :: e in r <==> e in events && MatchesSearch(e, term)
  {
    if |events| == 0 then []
    else (if MatchesSearch(events[0], term) then [events[0]] else []) + SearchFilter(events[1..], term)
  }

  /** `filter` by exact category. */
  function CategoryFilter(events: seq<Event>, category: string): (r: seq<Event>)
    ensures forall e :: e in r <==> e in events && e.category == category
  {
    if |events| == 0 then []
    else (if events[0].category == category then [events[0]] else []) + CategoryFilter(events[1..], category)
  }

  /** The search pass, applied only when the term is non-empty (truthy). */
  function SearchPass(events: seq<Event>, term: string): seq<Event> {
    if term == "" then events else SearchFilter(events, term)
  }

  /** The category pass, applied unless the selection is ALL. */
  function CategoryPass(events: seq<Event>, category: string): seq<Event> {
    if category == ALL then events else CategoryFilter(events, category)
  }

  /** `filterEvents`: the search pass followed by the category pass. */
  function FilterEvents(events: seq<Event>, term: string, category: string): seq<Event> {
    CategoryPass(SearchPass(events, term), category)
  }

  /** The single criterion an event must meet to be shown. */
  predicate Shown(e: Event, term: string, category: string) {
    (term == "" || MatchesSearch(e, term)) && (category == ALL || e.category == category)
  }

  /** Reference definition: one pass keeping the events that meet the criterion. */
  function ShownFilter(events: seq<Event>, term: string, category: string): (r: seq<Event>)
    ensures forall e :: e in r <==> e in events && Shown(e, term, category)
  {
    if |events| == 0 then []
    else (if Shown(events[0], term, category) then [events[0]] else []) + ShownFilter(events[1..], term, category)
  }

  lemma {:induction false} CategoryPassOfCons(head: seq<Event>, rest: seq<Event>, category: string)
    requires |head| <= 1
    ensures CategoryPass(head + rest, category) == CategoryPass(head, category) + CategoryPass(rest, category)
  {
    if |head| == 0 {
      assert head + rest == rest;
    } else if category != ALL {
      assert (head + rest)[0] == head[0];
      assert (head + rest)[1..] == rest;
      assert CategoryFilter(head, category) == (if head[0].category == category then [head[0]] else []) + CategoryFilter([], category);
    }
  }

  /** The two passes of `filterEvents` compute the reference filter. */
  lemma {:induction false} FilterEventsIsShownFilter(events: seq<Event>, term: string, category: string)
    ensures FilterEvents(events, term, category) == ShownFilter(events, term, category)
  {
    if |events| > 0 {
      var e, rest := events[0], events[1..];
      FilterEventsIsShownFilter(rest, term, category);
      var head := if term == "" || MatchesSearch(e, term) then [e] else [];
      assert events == [e] + rest;
      assert SearchPass(events, term) == head + SearchPass(rest, term);
      CategoryPassOfCons(head, SearchPass(rest, term), category);
      if |head| == 1 {
        assert CategoryPass(head, category) == (if Shown(e, term, category) then [e] else []) by {
          if category != ALL {
            assert CategoryFilter(head, category) == (if e.category == category then [e] else []) + CategoryFilter([], category);
          }
        }
      }
    }
  }

  /** With no search term and ALL selected, every event is shown. */
  lemma {:induction false} NoCriteriaShowsAll(events: seq<Event>)
    ensures FilterEvents(events, "", ALL) == events
  {
  }

  lemma {:induction false} ShownFilterIsSubsequence(events: seq<Event>, term: string, category: string)
    ensures Seqs.IsSubsequence(ShownFilter(events, term, category), events)
  {
    if |events| > 0 {
      ShownFilterIsSubsequence(events[1..], term, category);
      var r := ShownFilter(events, term, category);
      var tail := ShownFilter(events[1..], term, category);
      if Shown(events[0], term, category) {
        assert r == [events[0]] + tail;
        assert r[1..] == tail;
      } else {
        assert r == tail;
      }
    }
  }

  /** The filtered list is an order-preserving subsequence of the events. */
  lemma FilteredIsSubsequence(events: seq<Event>, term: string, category: string)
    ensures Seqs.IsSubsequence(FilterEvents(events, term, category), events)
  {
    FilterEventsIsShownFilter(events, term, category);
    ShownFilterIsSubsequence(events, term, category);
  }

  /** Soundness and completeness: an event of the list is shown iff it meets both criteria;
      with a non-empty term a shown event has the term, ignoring case, in its title,
      description or location; with a category other than ALL it has that category. */
  lemma FilterSoundAndComplete(events: seq<Event>, term: string, category: string)
    ensures forall e :: e in FilterEvents(events, term, category) <==> e in events && Shown(e, term, category)
    ensures forall e :: e in FilterEvents(events, term, category) && term != "" ==>
              ContainsIgnoringCase(e.title, term) || ContainsIgnoringCase(e.description, term) || ContainsIgnoringCase(e.location, term)
    ensures forall e :: e in FilterEvents(events, term, category) && category != ALL ==> e.category == category
  {
    FilterEventsIsShownFilter(events, term, category);
  }

  lemma {:induction false} ShownFilterIdempotent(events: seq<Event>, term: string, category: string)
    ensures ShownFilter(ShownFilter(events, term, category), term, category) == ShownFilter(events, term, category)
  {
    if |events| > 0 {
      ShownFilterIdempotent(events[1..], term, category);
      var tail := ShownFilter(events[1..], term, category);
      if Shown(events[0], term, category) {
        var r := [events[0]] + tail;
        assert ShownFilter(events, term, category) == r;
        assert r[0] == events[0] && r[1..] == tail;
        assert ShownFilter(r, term, category) == [events[0]] + ShownFilter(tail, term, category);
      } else {
        assert ShownFilter(events, term, category) == tail;
      }
    }
  }

  /** Filtering the filtered list again with the same inputs changes nothing. */
  lemma FilterEventsIdempotent(events: seq<Event>, term: string, category: string)
    ensures FilterEvents(FilterEvents(events, term, category), term, category) == FilterEvents(events, term, category)
  {
    FilterEventsIsShownFilter(events, term, category);
    FilterEventsIsShownFilter(ShownFilter(events, term, category), term, category);
    ShownFilterIdempotent(events, term, category);
  }

  /** `Array.isArray(data) ? data : data.created || data.events || []`; None when reading a
      field of a null body throws. */
  function NormalizeList(body: ListBody): (r: Option<seq<Event>>)
    ensures body.ArrayBody? ==> r == Some(body.items)
    ensures body.ObjectBody? && body.created.Some? ==> r == Some(body.created.value)
    ensures body.ObjectBody? && body.created.None? && body.events.Some? ==> r == Some(body.events.value)
    ensures body.ObjectBody? && body.created.None? && body.events.None? ==> r == Some([])
    ensures r.None? <==> body.NullBody?
  {
    match body
    case ArrayBody(items) => Some(items)
    case ObjectBody(created, events) =>
      if created.Some? then Some(created.value) else if events.Some? then Some(events.value) else Some([])
    case NullBody => None
  }

  datatype Page = Page(events: seq<Event>, loading: bool, term: string, category: string)

  const InitialPage := Page([], true, "", ALL)

  datatype Step = Step(page: Page, effects: seq<Effect>)

  /** The list the page shows: always the filter of the current events by the current inputs. */
  function Displayed(p: Page): seq<Event> {
    FilterEvents(p.events, p.term, p.category)
  }

  /** After a successful load the page shows exactly the loaded events that meet the current
      search term and category, in their loaded order; a null body shows nothing. */
  lemma DisplayedAfterLoad(p: Page, body: ListBody)
    ensures var loaded := if NormalizeList(body).Some? then NormalizeList(body).value else [];
            var shown := Displayed(LoadDone(p, Ok(body)).page);
            && Seqs.IsSubsequence(shown, loaded)
            && forall e :: e in shown <==> e in loaded && Shown(e, p.term, p.category)
  {
    var loaded := if NormalizeList(body).Some? then NormalizeList(body).value else [];
    FilteredIsSubsequence(loaded, p.term, p.category);
    FilterSoundAndComplete(loaded, p.term, p.category);
  }

  /** `loadEvents` start: loading set, the list requested. */
  function LoadBegin(p: Page): (r: Step)
    ensures r.page == p.(loading := true) && r.effects == [Request(GetAllEvents)]
  {
    Step(p.(loading := true), [Request(GetAllEvents)])
  }

  /** `loadEvents` end: the normalized list, or [] with an error toast when the call failed
      or the body could not be read; loading cleared on every path. */
  function LoadDone(p: Page, answer: Result<ListBody>): (r: Step)
    ensures !r.page.loading && NoRequest(r.effects)
    ensures answer.Err? ==> r.page.events == [] && r.effects == [Notify(Error, "Failed to load events")]
    ensures answer.Ok? && NormalizeList(answer.value).Some? ==>
              r.page.events == NormalizeList(answer.value).value && r.effects == []
    ensures answer.Ok? && answer.value.NullBody? ==> r.page.events == [] && r.effects == [Notify(Error, "Failed to load events")]
    ensures r.page.term == p.term && r.page.category == p.category
  {
    var events := if answer.Ok? then NormalizeList(answer.value) else None;
    match events
    case Some(es) => Step(p.(events := es, loading := false), [])
    case None => Step(p.(events := [], loading := false), [Notify(Error, "Failed to load events")])
  }

  /** `handleJoinEvent` start: a signed-out visitor gets a toast and a move to /login and no
      call; otherwise the join is requested (the page passes no user id). */
  function JoinBegin(p: Page, isAuthenticated: bool, eventId: int): (r: Step)
    ensures !isAuthenticated ==>
              NoRequest(r.effects) && r.effects == [Notify(Error, "Please sign in to join events"), Navigate("/login")]
    ensures isAuthenticated ==> r.effects == [Request(JoinEvent(eventId, None))]
    ensures r.page == p
  {
    if !isAuthenticated then Step(p, [Notify(Error, "Please sign in to join events"), Navigate("/login")])
    else Step(p, [Request(JoinEvent(eventId, None))])
  }

  /** `handleJoinEvent` end: on success a toast and a reload of the list, on failure a toast. */
  function JoinDone(p: Page, answer: Outcome<string>): (r: Step)
    ensures answer.Pass? ==>
              r.page == p.(loading := true) && r.effects == [Notify(Success, "Successfully joined the event!"), Request(GetAllEvents)]
    ensures answer.Fail? ==> r.page == p && r.effects == [Notify(Error, "Failed to join event")]
  {
    match answer
    case Pass =>
      var reload := LoadBegin(p);
      Step(reload.page, [Notify(Success, "Successfully joined the event!")] + reload.effects)
    case Fail(_) => Step(p, [Notify(Error, "Failed to join event")])
  }
}

=== FILE: my_events.dfy ===
/**
 * The My Events page: the normalization of the user-events response, the
 * load-on-mount condition, the organizer/admin create gate, the confirm-guarded
 * leave and delete, and the tab counters.
 */
module MyEvents {
  import opened Wrappers
  import opened Events
  import Constants
  import AuthContext

  /** The response of the user-events call: null, or an object whose lists may be missing. */
  datatype UserEventsBody = UserEventsBody(created: Option<seq<Event>>, registered: Option<seq<Event>>)

  datatype Page = Page(created: seq<Event>, registered: seq<Event>, loading: bool)

  const InitialPage := Page([], [], true)

  datatype Step = Step(page: Page, effects: seq<Effect>)

  /** `res?.created || []` and `res?.registered || []`. */
  function Normalize(res: Option<UserEventsBody>): (r: (seq<Event>, seq<Event>))
    ensures res.Some? && res.value.created.Some? ==> r.0 == res.value.created.value
    ensures res.Some? && res.value.registered.Some? ==> r.1 == res.value.registered.value
    ensures res.None? || res.value.created.None? ==> r.0 == []
    ensures res.None? || res.value.registered.None? ==> r.1 == []
  {
    match res
    case None => ([], [])
    case Some(b) =>
      (if b.created.Some? then b.created.value else [], if b.registered.Some? then b.registered.value else [])
  }

  /** `loadUserEvents` start. */
  function LoadBegin(p: Page, userId: int): (r: Step)
    ensures r.page.loading && r.effects == [Request(GetUserEvents(userId))]
    ensures r.page.created == p.created && r.page.registered == p.registered
  {
    Step(p.(loading := true), [Request(GetUserEvents(userId))])
  }

  /** `loadUserEvents` end: the normalized lists, or the previous lists and a toast; loading
      cleared either way. */
  function LoadDone(p: Page, answer: Result<Option<UserEventsBody>>): (r: Step)
    ensures !r.page.loading && NoRequest(r.effects)
    ensures answer.Ok? ==> (r.page.created, r.page.registered) == Normalize(answer.value) && r.effects == []
    ensures answer.Err? ==>
              r.page.created == p.created && r.page.registered == p.registered
              && r.effects == [Notify(Error, "Failed to load your events")]
  {
    match answer
    case Ok(res) =>
      var lists := Normalize(res);
      Step(Page(lists.0, lists.1, false), [])
    case Err(_) => Step(p.(loading := false), [Notify(Error, "Failed to load your events")])
  }

  /** `user?.id` is truthy: a user is present and its id is not 0. */
  predicate HasUserId(user: Option<AuthContext.Claims>) {
    user.Some? && user.value.id != 0
  }

  /** The mount effect: load only when the user has an id; otherwise the page stays loading. */
  function Mount(user: Option<AuthContext.Claims>): (r: Step)
    ensures r.page == InitialPage
    ensures HasUserId(user) ==> r.effects == [Request(GetUserEvents(user.value.id))]
    ensures !HasUserId(user) ==> r.effects == []
  {
    if HasUserId(user) then LoadBegin(InitialPage, user.value.id) else Step(InitialPage, [])
  }

  /** `user.role === 'ORGANIZER' || user.role === 'ADMIN'`. */
  predicate CanCreate(user: AuthContext.Claims)
    ensures CanCreate(user) <==> user.role == Some("ORGANIZER") || user.role == Some("ADMIN")
  {
    user.role.Some? && Constants.HasOrganizerRights(user.role.value)
  }

  datatype Tab = RegisteredTab | CreatedTab

  /** The create-event buttons on the page: the header button, and the empty-state button of
      the created tab. */
  datatype CreateButton = HeaderCreate | FirstEventCreate

  function CreateButtons(user: AuthContext.Claims, p: Page, tab: Tab): (buttons: set<CreateButton>)
    ensures buttons <= {HeaderCreate, FirstEventCreate}
    ensures HeaderCreate in buttons <==> CanCreate(user) && !p.loading
    ensures FirstEventCreate in buttons <==> CanCreate(user) && !p.loading && tab == CreatedTab && p.created == []
  {
    if p.loading || !CanCreate(user) then {}
    else {HeaderCreate} + (if tab == CreatedTab && p.created == [] then {FirstEventCreate} else {})
  }

  /** The counters shown on the two tabs: (registered, created). */
  function TabCounts(p: Page): (nat, nat) {
    (|p.registered|, |p.created|)
  }

  /** After a successful load the counters are the lengths of the lists the response carried
      (0 for a missing list). */
  lemma CountsAfterLoad(p: Page, res: Option<UserEventsBody>)
    ensures var q := LoadDone(p, Ok(res)).page;
            && TabCounts(q).0 == (if res.Some? && res.value.registered.Some? then |res.value.registered.value| else 0)
            && TabCounts(q).1 == (if res.Some? && res.value.created.Some? then |res.value.created.value| else 0)
  {
  }

  /** The leave and delete buttons. */
  datatype Removal = Leave | Delete

  /** `handleLeaveEvent` / `handleDeleteEvent` start: nothing unless confirmed. */
  function RemoveBegin(p: Page, kind: Removal, confirmed: bool, eventId: int, userId: int): (r: Step)
    ensures !confirmed ==> r == Step(p, [])
    ensures confirmed ==> r.page == p
    ensures confirmed ==>
              r.effects == [Request(if kind == Leave then LeaveEvent(eventId, userId) else DeleteEvent(eventId, userId))]
  {
    if !confirmed then Step(p, [])
    else Step(p, [Request(if kind == Leave then LeaveEvent(eventId, userId) else DeleteEvent(eventId, userId))])
  }

  /** The end of a leave or delete: success toasts and reloads the lists; failure only toasts. */
  function RemoveDone(p: Page, kind: Removal, answer: Outcome<string>, userId: int): (r: Step)
    ensures answer.Pass? ==>
              r.effects == [Notify(Success, if kind == Leave then "Successfully left the event" else "Event deleted successfully"),
                            Request(GetUserEvents(userId))]
    ensures answer.Pass? ==> r.page.loading
    ensures answer.Pass? ==> r.page.created == p.created && r.page.registered == p.registered
    ensures answer.Fail? ==> r.page == p
    ensures answer.Fail? ==>
              r.effects == [Notify(Error, if kind == Leave then "Failed to leave event" else "Failed to delete event")]
  {
    match answer
    case Pass =>
      var reload := LoadBegin(p, userId);
      var message := if kind == Leave then "Successfully left the event" else "Event deleted successfully";
      Step(reload.page, [Notify(Success, message)] + reload.effects)
    case Fail(_) =>
      Step(p, [Notify(Error, if kind == Leave then "Failed to leave event" else "Failed to delete event")])
  }

  /** The page's loading flag ends false after any load, whatever the answer. */
  lemma LoadAlwaysEnds(p: Page, userId: int, answer: Result<Option<UserEventsBody>>)
    ensures !LoadDone(LoadBegin(p, userId).page, answer).page.loading
  {
  }
}

=== FILE: navbar.dfy ===
/**
 * The navigation bar: the organizer test, the create-event click guard, which links
 * are visible for the session, and the logout handler.
 */
module Navbar {
  import opened Wrappers
  import opened Events
  import Constants
  import AuthContext

  /** `user?.role === 'ORGANIZER' || user?.role === 'ADMIN'`. */
  predicate IsOrganizer(user: Option<AuthContext.Claims>) {
    user.Some? && user.value.role.Some? && Constants.HasOrganizerRights(user.value.role.value)
  }

  /** `user?.role === 'ADMIN'`. */
  predicate IsAdmin(user: Option<AuthContext.Claims>) {
    user.Some? && user.value.role == Some(Constants.RoleName(Constants.Admin))
  }

  /** The organizer test holds exactly for the ORGANIZER and ADMIN roles. */
  lemma IsOrganizerCharacterized(user: Option<AuthContext.Claims>)
    ensures IsOrganizer(user) <==> user.Some? && (user.value.role == Some("ORGANIZER") || user.value.role == Some("ADMIN"))
    ensures IsAdmin(user) ==> IsOrganizer(user)
  {
  }

  /** The two menus: the mobile menu and the user drop-down. */
  datatype Menus = Menus(mobileOpen: bool, userMenuOpen: bool)

  datatype Click = Click(menus: Menus, defaultPrevented: bool, effects: seq<Effect>)

  /** `handleCreateClick`: a non-organizer's click is cancelled with a toast; an organizer
      is sent to /create-event; the mobile menu is closed either way. */
  function CreateClick(m: Menus, user: Option<AuthContext.Claims>): (r: Click)
    ensures !r.menus.mobileOpen && r.menus.userMenuOpen == m.userMenuOpen
    ensures r.defaultPrevented <==> !IsOrganizer(user)
    ensures IsOrganizer(user) ==> r.effects == [Navigate("/create-event")]
    ensures !IsOrganizer(user) ==> r.effects == [Notify(Error, "Only organizers can create events")]
  {
    if !IsOrganizer(user) then Click(m.(mobileOpen := false), true, [Notify(Error, "Only organizers can create events")])
    else Click(m.(mobileOpen := false), false, [Navigate("/create-event")])
  }

  datatype NavLink = Discover | CreateEventLink | MyEventsLink | AdminDashboardLink | SignOut | SignIn | JoinNow

  /** The links of the desktop bar (the admin link and sign-out sit in the open user menu). */
  function DesktopLinks(auth: AuthContext.AuthState, m: Menus): set<NavLink> {
    {Discover}
    + (if auth.isAuthenticated then {CreateEventLink, MyEventsLink} else {SignIn, JoinNow})
    + (if auth.isAuthenticated && m.userMenuOpen then {SignOut} + (if IsAdmin(auth.user) then {AdminDashboardLink} else {}) else {})
  }

  /** The links of the open mobile menu. */
  function MobileLinks(auth: AuthContext.AuthState, m: Menus): set<NavLink> {
    if !m.mobileOpen then {}
    else
      {Discover}
      + (if auth.isAuthenticated
         then {CreateEventLink, MyEventsLink, SignOut} + (if IsAdmin(auth.user) then {AdminDashboardLink} else {})
         else {SignIn, JoinNow})
  }

  /** Every link the bar renders, desktop and mobile together (the breakpoint hides one of the two). */
  function VisibleLinks(auth: AuthContext.AuthState, m: Menus): (links: set<NavLink>)
    ensures AdminDashboardLink in links ==> auth.isAuthenticated && IsAdmin(auth.user)
    ensures (CreateEventLink in links || MyEventsLink in links) <==> auth.isAuthenticated
    ensures (SignIn in links || JoinNow in links) <==> !auth.isAuthenticated
    ensures auth.isAuthenticated && IsAdmin(auth.user) && (m.mobileOpen || m.userMenuOpen) ==> AdminDashboardLink in links
    ensures Discover in links
  {
    DesktopLinks(auth, m) + MobileLinks(auth, m)
  }

  /** `handleLogout`: logout, a move to '/', and the user menu closed. */
  function HandleLogout(s: AuthContext.Session, m: Menus): (r: (AuthContext.Session, Menus, seq<Effect>))
    ensures r.0 == AuthContext.LogoutSession(s)
    ensures !r.0.state.isAuthenticated && AuthContext.TOKEN_KEY !in r.0.storage
    ensures !r.1.userMenuOpen && r.1.mobileOpen == m.mobileOpen
    ensures r.2 == [Navigate("/")]
  {
    (AuthContext.LogoutSession(s), m.(userMenuOpen := false), [Navigate("/")])
  }

  /** After logout only the signed-out links remain. */
  lemma LinksAfterLogout(s: AuthContext.Session, m: Menus)
    ensures var r := HandleLogout(s, m);
            VisibleLinks(r.0.state, r.1) <= {Discover, SignIn, JoinNow}
  {
  }

  /** A session restored from a token whose role claim is "ROLE_ADMIN" keeps that raw role, so
      it is neither organizer nor admin; logging in with the same token normalizes the role to
      ADMIN and grants both. */
  lemma RestoredPrefixedRoleLosesRights(storage: map<string, string>, now: int, decode: string -> AuthContext.Decoded)
    requires AuthContext.Restorable(storage, now, decode)
    requires decode(storage[AuthContext.TOKEN_KEY]).claims.role == Some("ROLE_ADMIN")
    ensures var r := AuthContext.Restore(storage, now, decode);
            r.state.isAuthenticated && !IsOrganizer(r.state.user) && !IsAdmin(r.state.user)
    ensures var l := AuthContext.Login(AuthContext.Session(AuthContext.Initial, storage), Ok(storage[AuthContext.TOKEN_KEY]), decode);
            l.result.Pass? && IsAdmin(l.session.state.user) && IsOrganizer(l.session.state.user)
  {
    AuthContext.NormalizeStripsPrefix("ADMIN");
    assert "ROLE_ADMIN" == AuthContext.ROLE_PREFIX + "ADMIN";
  }
}

=== FILE: seqs.dfy ===
/** The order-preserving subsequence relation. */
module Seqs {

  /** `a` is obtained from `b` by deleting elements, keeping the order of the rest. */
  predicate IsSubsequence<T(==)>(a: seq<T>, b: seq<T>)
    decreases |b|
  {
    |a| == 0 ||
    (|b| > 0 && ((a[0] == b[0] && IsSubsequence(a[1..], b[1..])) || IsSubsequence(a, b[1..])))
  }
}

=== FILE: text.dfy ===
/** The few string operations the pages rely on, restricted to ASCII case folding. */
module Text {
  import opened Wrappers

  /** `toLowerCase` on one character, ASCII letters only. */
  function LowerChar(c: char): char {
    if 'A' <= c <= 'Z' then (c as int + 32) as char else c
  }

  /** `toLowerCase` on a string: every character folded, nothing else touched. */
  function Lower(s: string): (r: string)
    ensures |r| == |s|
    ensures forall i :: 0 <= i < |s| ==> r[i] == LowerChar(s[i])
  {
    if |s| == 0 then [] else [LowerChar(s[0])] + Lower(s[1..])
  }

  /** Lower-casing twice is lower-casing once. */
  lemma LowerIdempotent(s: string)
    ensures Lower(Lower(s)) == Lower(s)
  {
    assert forall i :: 0 <= i < |s| ==> LowerChar(LowerChar(s[i])) == LowerChar(s[i]);
  }

  /** JavaScript's `length`: UTF-16 code units, so a character outside the Basic
      Multilingual Plane counts twice. */
  function JsLength(s: string): (n: nat)
    ensures |s| <= n <= 2 * |s|
    ensures n == |s| <==> forall i :: 0 <= i < |s| ==> s[i] as int <= 0xFFFF
  {
    if |s| == 0 then 0
    else
      var n := (if s[0] as int > 0xFFFF then 2 else 1) + JsLength(s[1..]);
      assert forall i :: 1 <= i < |s| ==> s[i] == s[1..][i - 1];
      n
  }

  /** `a < b` on two JavaScript strings of ASCII characters: character-by-character order,
      a proper prefix coming first. */
  predicate LexLess(a: string, b: string)
    decreases |a|
  {
    |b| > 0 && (|a| == 0 || a[0] < b[0] || (a[0] == b[0] && LexLess(a[1..], b[1..])))
  }

  /** No string comes before itself. */
  lemma {:induction false} LexLessIrreflexive(a: string)
    ensures !LexLess(a, a)
  {
    if |a| > 0 {
      LexLessIrreflexive(a[1..]);
    }
  }

  /** `pat` appears in `s` starting at index `i`. */
  predicate OccursAt(s: string, pat: string, i: int) {
    0 <= i && i + |pat| <= |s| && s[i..i + |pat|] == pat
  }

  /** The first occurrence of `pat` in `s` at or after `from`, scanning left to right. */
  function IndexOfFrom(s: string, pat: string, from: nat): (r: Option<nat>)
    ensures r.Some? ==> from <= r.value && OccursAt(s, pat, r.value)
    ensures r.Some? ==> forall j :: from <= j < r.value ==> !OccursAt(s, pat, j)
    ensures r.None? ==> forall j :: from <= j ==> !OccursAt(s, pat, j)
    decreases |s| - from
  {
    if from + |pat| > |s| then None
    else if s[from..from + |pat|] == pat then Some(from)
    else IndexOfFrom(s, pat, from + 1)
  }

  /** `String.prototype.indexOf`: the least index where `pat` occurs, if any. */
  function IndexOf(s: string, pat: string): (r: Option<nat>)
    ensures r.Some? <==> exists i :: OccursAt(s, pat, i)
    ensures r.Some? ==> OccursAt(s, pat, r.value)
    ensures r.Some? ==> forall j :: 0 <= j < r.value ==> !OccursAt(s, pat, j)
  {
    IndexOfFrom(s, pat, 0)
  }

  /** `String.prototype.includes`. */
  function Includes(s: string, pat: string): (b: bool)
    ensures b <==> exists i :: OccursAt(s, pat, i)
  {
    IndexOf(s, pat).Some?
  }

  /** `String.prototype.replace` with a string pattern and a literal replacement (no `$` patterns):
      only the FIRST occurrence, wherever it is, is replaced. */
  function ReplaceFirst(s: string, pat: string, rep: string): (r: string)
    ensures (forall i :: !OccursAt(s, pat, i)) ==> r == s
    ensures forall i :: OccursAt(s, pat, i) && (forall j :: 0 <= j < i ==> !OccursAt(s, pat, j)) ==>
              r == s[..i] + rep + s[i + |pat|..]
  {
    match IndexOf(s, pat)
    case None => s
    case Some(i) => s[..i] + rep + s[i + |pat|..]
  }
}

=== FILE: wrappers.dfy ===
/** Failure-carrying datatypes shared by the whole model. */
module Wrappers {

  /** A value that may be missing (JavaScript `null`/`undefined`). */
  datatype Option<+T> = None | Some(value: T)

  /** The answer of an asynchronous call: a value, or an error with its `message`. */
  datatype Result<+T> = Ok(value: T) | Err(message: string)

  /** Success or failure of a call whose success value is ignored. */
  datatype Outcome<+E> = Pass | Fail(error: E)
}
